=== FILE: README.md ===
# contact-backend in Dafny

A functional model of the decision logic of the contact-backend REST service:
how it issues, stores and verifies JSON Web Tokens, how a request is
authenticated, which cookies the auth endpoints set and clear, how the
per-user contact list is created, listed, updated, starred and deleted, and
how the CORS middleware decides whether an origin is allowed.

Every operation is a pure function over immutable values. The token
collection and the contact collection are sequences of records in insertion
order, and an operation that writes returns the new collection beside its
answer (`Effect(result, state)`, `Issued(value, store)`). Errors are values
(`Err(ApiError(status, message))`, `Err(Thrown(message))`,
`Err(ValidationError(failures))`), so every error path of the source is a
branch of the model. Time is a natural number of seconds. Signing is
abstract: a token is either a payload signed with a key or an opaque string.
The user directory, the Google code exchange, `jwt.decode`, the URL parser
and the `isEmail` validator are function parameters.

| file | module | source |
|---|---|---|
| outcomes.dfy | `Outcomes` | status codes, errors, `Result`, `Option` |
| seqs.dfy | `Seqs` | first-match search and filtering over sequences |
| strings.dfy | `Strings` | JavaScript `trim`, ASCII `toLowerCase`, `indexOf` |
| config.dfy | `Config` | src/config/config.js defaults |
| jwt.dfy | `Jwt` | the JWT payload, `jwt.sign` / `jwt.verify` |
| users.dfy | `Users` | the user record the core reads |
| token_service.dfy | `TokenService` | src/services/token.service.js |
| passport.dfy | `Passport` | src/config/passport.js |
| auth_controller.dfy | `AuthController` | src/controllers/auth.controller.js |
| contact_model.dfy | `ContactModel` | src/models/contact.model.js |
| contact_service.dfy | `ContactService` | src/services/contact.service.js |
| contact_controller.dfy | `ContactController` | src/controllers/contact.controller.js |
| cors.dfy | `Cors` | src/middlewares/cors.js |

Two behaviours of the code are easy to misread:

- The token extractor reads a single cookie, named by `key` (default
  `AUTH_COOKIE`). `Passport.OnlyOneCookieProbed` states this.
- `logout` clears the cookies only after `authService.logout` resolves; a
  failure there leaves them in place. `AuthController.Logout` states this.

The auth handlers `register`, `login` and `verifyGoogleOauth` set cookies
without an expiry (see "## Findings"). The model keeps that behaviour in
`AuthController.AuthCookiesAsWritten`; the handlers use the corrected
`AuthController.AuthCookies` (see "## Left out"), and
`AuthController.AuthCookiesDifferOnlyInExpiry` states that the two differ in
nothing else.

## Model

| member | source | states |
|---|---|---|
| `Config.WithDefaults` | src/config/config.js:13-20 | With no overrides, access tokens live 30 minutes, refresh tokens 30 days, reset-password and verify-email tokens 10 minutes. |
| `Jwt.Verify` | src/services/token.service.js:55 | Verification succeeds exactly on a token signed with the given key whose `exp` is still ahead; the payload it yields signs back to the same token; failures are malformed, bad signature or expired. |
| `Jwt.VerifySign` | src/services/token.service.js:55 | Verify inverts Sign before `exp` and reports expiry from `exp` on. |
| `Jwt.VerifyOtherKey` | src/services/token.service.js:55 | A token signed with one key never verifies under a different key. |
| `TokenService.GenerateToken` | src/services/token.service.js:18-26 | The token carries `sub = userId`, `iat = now`, `exp = expires` and the given type; it is signed with the given secret, or the configured one when none is given. |
| `TokenService.GeneratedTokenVerifies` | src/services/token.service.js:18-26 | A token generated with the default secret verifies under the configured secret exactly until its expiry, and yields its own subject, type and expiry. |
| `TokenService.SaveToken` | src/services/token.service.js:37-46 | Exactly one record is appended, holding the given token, user, expiry and type; `blacklisted` is false unless `true` is passed; earlier records are unchanged. |
| `TokenService.VerifyToken` | src/services/token.service.js:54-61 | A signature or expiry failure is passed on. Otherwise the call succeeds iff some record matches the token, the requested type, `user = payload.sub` and `blacklisted = false`, and it fails with "Token not found" otherwise. The record returned is such a match. |
| `TokenService.SavedTokenVerifies` | src/services/token.service.js:37-61 | A freshly generated and saved token verifies for its type iff it has not expired. |
| `TokenService.IrrelevantRecordIgnored` | src/services/token.service.js:56-59 | Adding a blacklisted record, or one stored under another type, never changes the verdict; the type compared is the record's, not the payload's. |
| `TokenService.GenerateAuthTokens` | src/services/token.service.js:68-86 | The ACCESS token expires `accessExpirationMinutes` after now and the REFRESH token `refreshExpirationDays` after now. The pair returned holds exactly those tokens and expiries, and only the REFRESH record is added to the store. |
| `TokenService.AuthRefreshVerifies` | src/services/token.service.js:68-86 | The issued REFRESH token verifies as REFRESH against the new store exactly until its expiry. |
| `TokenService.AccessTokenNotStored` | src/services/token.service.js:68-74 | The issued ACCESS token is never stored, so store-backed verification rejects it for every type. |
| `TokenService.IssueStored` | src/services/token.service.js:98-100 | A single-purpose token expires the given number of minutes after now and is saved as one non-blacklisted record of its type. |
| `TokenService.GenerateResetPasswordToken` | src/services/token.service.js:93-102 | NOT_FOUND with the store unchanged iff no user has the email. Otherwise it always succeeds with a RESET_PASSWORD token for that user, saved with the reset-password lifetime. |
| `TokenService.GenerateVerifyEmailToken` | src/services/token.service.js:109-114 | A VERIFY_EMAIL token for the user, saved with the verify-email lifetime. |
| `TokenService.ResetTokenVerifies` | src/services/token.service.js:93-102 | Unless the store already held the same token, an issued reset-password token verifies as RESET_PASSWORD exactly until it expires and never as VERIFY_EMAIL. |
| `TokenService.VerifyEmailTokenVerifies` | src/services/token.service.js:109-114 | Unless the store already held the same token, an issued verify-email token verifies as VERIFY_EMAIL exactly until it expires and never as RESET_PASSWORD. |
| `TokenService.GoogleUserDraft` | src/services/token.service.js:133-141 | The synthesised user has role `user`, the claims' name and email, `isEmailVerified` equal to the claim, and a password that starts with the email and is longer than it. |
| `TokenService.GenerateGoogleUserToken` | src/services/token.service.js:128-145 | BAD_REQUEST with the store unchanged when either token is missing. It succeeds iff both tokens are present, the id token decodes and the directory returns a user, and then it issues that user's auth tokens. Every failure leaves the store unchanged. |
| `TokenService.GoogleRefreshVerifies` | src/services/token.service.js:142-144 | After a successful Google sign-in, the REFRESH token handed out verifies as REFRESH against the new store exactly until its expiry. |
| `Passport.TokenExtractor` | src/config/passport.js:8-17 | A truthy bearer token wins whatever the cookies. Otherwise, with a cookie jar, the cookie named `key` is used (default: the access cookie name). Without a jar there is no token. |
| `Passport.OnlyOneCookieProbed` | src/config/passport.js:13-15 | Two cookie jars that agree on the probed name give the same token: no other cookie name is consulted. |
| `Passport.JwtVerify` | src/config/passport.js:25-38 | A non-ACCESS payload is an error ("Invalid token type"). For an ACCESS payload, an unknown subject is a plain failure and a known one authenticates that user. |
| `Passport.Authenticate` | src/config/passport.js:19-40 | A request is authenticated as `u` iff its extracted token is signed with the configured secret, unexpired, of type ACCESS, and its subject is `u`. It is rejected with "Invalid token type" iff the token is signed, unexpired and of any other type; every other request is a plain failure. |
| `AuthController.CreateSetCookieOptions` | src/controllers/auth.controller.js:17-28 | Always HttpOnly and SameSite=lax; Secure exactly in production; `expires` is the argument's `expires` property, absent for a bare token string. |
| `AuthController.CreateClearCookieOptions` | src/controllers/auth.controller.js:34-42 | The same HttpOnly, Secure and SameSite attributes as the set options, whatever their argument, and no `expires`. |
| `AuthController.AuthCookiesAsWritten` | src/controllers/auth.controller.js:47-48 | The register/login/Google-callback cookies as the source writes them: the access cookie holds the access token and the refresh cookie the refresh token. |
| `AuthController.AsWrittenCookiesNeverExpire` | src/controllers/auth.controller.js:47-48 | As written, neither auth cookie has an expiry, whatever the tokens' lifetimes. |
| `AuthController.AuthCookies` | src/controllers/auth.controller.js:46-48 | The intended cookies: same names and values, each expiring with its token. |
| `AuthController.AuthCookiesExpireWithTokens` | src/controllers/auth.controller.js:46-48 | For freshly issued tokens, each cookie's expiry equals the `exp` claim of the JWT it holds. |
| `AuthController.AuthCookiesDifferOnlyInExpiry` | src/controllers/auth.controller.js:47-48 | The corrected cookies have the source's names, values and HttpOnly, Secure and SameSite attributes, and differ only in carrying an expiry; a client keeps the same values either way. |
| `AuthController.IssueSession` | src/controllers/auth.controller.js:46-49 | Once a user is known the answer carries the given status, the user, and a token pair expiring `accessExpirationMinutes` and `refreshExpirationDays` after now, with both auth cookies set from it; exactly the REFRESH record is stored. |
| `AuthController.Register` | src/controllers/auth.controller.js:44-50 | A user-creation error is the answer, with no token stored. Otherwise the answer is 201 with the user, freshly issued tokens and both auth cookies, and exactly the REFRESH record is stored. |
| `AuthController.Login` | src/controllers/auth.controller.js:52-59 | A credential error is the answer, with no token stored. Otherwise the answer is 200 with the user, freshly issued tokens and both auth cookies, and exactly the REFRESH record is stored. |
| `AuthController.IssuedCookiesAuthenticate` | src/controllers/auth.controller.js:46-48 | A client that keeps the auth cookies issued for a user is authenticated as that user while the ACCESS token lives, whatever else its jar held. |
| `AuthController.LoginCookieAuthenticates` | src/controllers/auth.controller.js:52-59 | A client that keeps the cookies a login sets is authenticated as that user while the ACCESS token lives. |
| `AuthController.RegisterCookieAuthenticates` | src/controllers/auth.controller.js:44-50 | A client that keeps the cookies a registration sets is authenticated as the new user while the ACCESS token lives. |
| `AuthController.RefreshTokenRejected` | src/config/passport.js:27-28 | An issued REFRESH token presented as a bearer token is rejected for its type, never authenticated. |
| `AuthController.LogoutRefreshToken` | src/controllers/auth.controller.js:62 | The refresh cookie when it is truthy, else the body's `refreshToken`. A request without a cookie jar is a TypeError. |
| `AuthController.Logout` | src/controllers/auth.controller.js:61-67 | Succeeds iff the token source resolves and the auth service's logout passes; then 204 and both cookies cleared; if either fails, its error is the answer and no cookie is cleared. |
| `AuthController.LogoutEndsCookieSession` | src/controllers/auth.controller.js:63-66 | After a successful logout, a client's cookies no longer authenticate it, whatever they held. |
| `AuthController.VerifyGoogleOauth` | src/controllers/auth.controller.js:96-109 | BAD_REQUEST for a missing `code`. A failed exchange or token generation redirects to `<domain>oauth/error` with no cookies and the store untouched. Success sets both cookies and redirects to `<domain>`. |
| `AuthController.GoogleCookiesAuthenticate` | src/controllers/auth.controller.js:100-104 | A successful Google callback redirects to `<domain>` with cookies that authenticate the user the directory returned while the ACCESS token lives. |
| `ContactModel.NormalizeEmailContent` | src/models/contact.model.js:16-17 | The normalised email is the slice of the input between whitespace-only ends, each character lower-cased in place. |
| `ContactModel.NormalizeEmailFixpoint` | src/models/contact.model.js:16-17 | Normalisation leaves a string unchanged iff it is already trimmed and lower-case; normalising twice equals normalising once. |
| `ContactModel.SetterOrderIrrelevant` | src/models/contact.model.js:16-17 | Trimming then lower-casing equals lower-casing then trimming. |
| `ContactModel.ValidationFailures` | src/models/contact.model.js:7-32 | `name`, `email` and `created_by` fail iff missing (an empty string counts as missing). `email` also fails iff `isEmail` rejects it, with "Invalid email". No other path fails. |
| `ContactModel.Save` | src/models/contact.model.js:5-37 | Saving succeeds iff no validator fails, and then stores exactly the draft's values under the id. Otherwise it is a ValidationError listing the failures. |
| `ContactModel.IsEmailTaken` | src/models/contact.model.js:49-52 | True iff some contact, of any owner and other than the excluded id, holds the normalised email. |
| `ContactModel.AppendKeepsInvariant` | src/models/contact.model.js:12-17 | A well-formed contact with an id and email no one holds can be added without breaking collection-wide uniqueness. |
| `ContactModel.ReplaceKeepsInvariant` | src/models/contact.model.js:12-17 | Replacing a contact, keeping its id, by a well-formed one whose email no other contact holds keeps the invariant. |
| `ContactModel.RemoveKeepsInvariant` | src/models/contact.model.js:12-17 | Removing a contact keeps the invariant. |
| `ContactModel.NoSelfCollision` | src/models/contact.model.js:49-52 | Under the invariant a contact's email is free once its own id is excluded, and taken otherwise. |
| `ContactService.CreateContact` | src/services/contact.service.js:10-15 | "Email already taken" with the store unchanged when any contact holds the email. Otherwise it succeeds iff validation passes, appending exactly one contact with the trimmed name, normalised email, `starred` defaulting to false, and an id and email no contact holds. |
| `ContactService.CreatePreservesInvariant` | src/services/contact.service.js:10-15 | Creation keeps every contact well formed and ids and emails unique across the collection. |
| `ContactService.GetContactById` | src/services/contact.service.js:37-39 | A contact is returned only if both its id and its owner match; nothing is returned iff no contact matches both. |
| `ContactService.GetContactByIdExact` | src/services/contact.service.js:37-39 | Under unique ids, the scoped lookup returns `c` iff `c` is in the collection. |
| `ContactService.CreateThenGet` | src/services/contact.service.js:37-39 | When creation succeeds, the new contact is found by its owner under its new id. |
| `ContactService.GetAllContactsForUser` | src/services/contact.service.js:41-48 | The result holds exactly the user's contacts (only the starred ones when asked), each as often as in the collection, with every starred contact before every unstarred one. |
| `ContactService.UpdateContactById` | src/services/contact.service.js:57-68 | NOT_FOUND when the user owns no contact with the id; "Email already taken" when a present email is held by another contact. Otherwise it succeeds iff the assigned document passes validation, and then exactly the fields in the body are assigned (through the setters) and only that position of the collection changes. |
| `ContactService.UpdatePreservesInvariant` | src/services/contact.service.js:57-68 | An update keeps the collection invariant, including global email uniqueness. |
| `ContactService.DeleteContactById` | src/services/contact.service.js:76-83 | NOT_FOUND ("User not found") iff the user owns no contact with the id; otherwise it always succeeds, and exactly that contact is removed and returned. |
| `ContactService.DeleteThenGone` | src/services/contact.service.js:76-83 | After a delete the invariant holds and the owner no longer finds the contact. |
| `ContactService.UpdateStarContactById` | src/services/contact.service.js:92-100 | NOT_FOUND iff the user owns no contact with the id. Otherwise it always succeeds, and only `starred` changes, to the given value, or false when none is given. |
| `ContactService.StarShowsInStarredList` | src/services/contact.service.js:92-100 | Starring keeps the invariant, and the contact is in its owner's starred-only list iff it was starred with `true`. |
| `ContactService.OtherOwnersUntouched` | src/services/contact.service.js:57-100 | Update, delete and star by one user never alter or remove a contact owned by another. |
| `ContactController.CreateContact` | src/controllers/contact.controller.js:7-10 | The new contact belongs to the caller, with the trimmed name, the normalised email and `starred` defaulting to false, and the answer is 201. A taken email is "Email already taken"; otherwise creation succeeds iff the caller-owned body passes validation. Errors leave the collection unchanged. |
| `ContactController.CreateIgnoresClaimedOwner` | src/controllers/contact.controller.js:7-10 | The `created_by` in the body has no effect on the outcome. |
| `ContactController.StarredFlag` | src/controllers/contact.controller.js:20-21 | The starred filter is on iff the query value is exactly the string `true`. |
| `ContactController.GetAllContactsForUser` | src/controllers/contact.controller.js:19-24 | 200 with exactly the caller's contacts (starred only iff the query is `true`), each as often as in the collection, starred first. |
| `ContactController.OtherStarredQueriesListAll` | src/controllers/contact.controller.js:20-22 | Any `starred` query other than exactly `true` lists every contact of the caller. |
| `ContactController.GetContact` | src/controllers/contact.controller.js:26-32 | 200 with the caller's contact of that id, or NOT_FOUND "Contact not found" iff the caller owns none. |
| `ContactController.UpdateContact` | src/controllers/contact.controller.js:34-40 | A contact the caller does not own is NOT_FOUND; a present email held by another contact is "Email already taken". Otherwise the update succeeds iff the assigned document, with `created_by` forced to the caller, passes validation. Then the body's name (trimmed), email (normalised) and `starred` replace the stored ones, the contact belongs to the caller, and only that position of the collection changes. Errors leave the collection unchanged. |
| `ContactController.UpdateKeepsOwners` | src/controllers/contact.controller.js:34-40 | Every position of the collection keeps its owner and the invariant holds: ownership cannot be transferred. |
| `ContactController.DeleteContact` | src/controllers/contact.controller.js:42-45 | Succeeds iff the caller owns a contact with that id; then exactly that contact is removed from its position and returned. Otherwise "User not found" with the collection unchanged. |
| `ContactController.UpdateContactStar` | src/controllers/contact.controller.js:47-51 | Succeeds iff the caller owns a contact with that id. Then the contact returned and stored at that position is the old one with only `starred` changed, to the body's flag (false when absent). Otherwise "User not found" with the collection unchanged. |
| `ContactController.CallerTouchesOnlyOwnContacts` | src/controllers/contact.controller.js:34-51 | No update, delete or star request alters or removes another user's contact. |
| `ContactController.Pick` | src/controllers/contact.controller.js:13-14 | The result keeps exactly the listed keys that are present, with their values. |
| `ContactController.ContactsQuery` | src/controllers/contact.controller.js:12-17 | The filter holds only `name`/`role` and the options only `sortBy`/`limit`/`page`; the two never share a key. |
| `Cors.OriginHost` | src/middlewares/cors.js:26-33 | A missing, empty or unparseable origin gives the empty host. A non-empty origin with no `http` anywhere in it is parsed with `http://` in front; any other origin is parsed as it is. |
| `Cors.Whitelisted` | src/middlewares/cors.js:35 | A host passes iff it is empty or `localhost` occurs anywhere in it. |
| `Cors.CorsAllowedDomain` | src/middlewares/cors.js:15-39 | `maxAge` is 86400 and the allowed headers are `content-type` and `authorization`. `credentials` is set (to true) iff the environment is development. `origin` is true iff the origin's host passes the whitelist. |
| `Cors.CorsMiddleware` | src/middlewares/cors.js:41-47 | The CORS handler is skipped iff `X-Skip-Cors` is exactly `true`; otherwise it applies exactly the options `corsAllowedDomain` computes for the request. |
| `Cors.UnknownOriginAllowed` | src/middlewares/cors.js:30-37 | A missing or empty origin, or one the URL parser rejects, is allowed. |
| `Cors.LookalikeHostAllowed` | src/middlewares/cors.js:8-37 | The pattern is unanchored: `localhost.evil.example` is allowed, while a host without `localhost` is refused. |
| `Cors.SchemePrefixedOnlyWithoutHttp` | src/middlewares/cors.js:27-29 | A bare address gets `http://` prefixed; a bare host that merely contains `http` is parsed unprefixed. |
| `Strings.TrimBounds` | src/models/contact.model.js:10 | Gives the two cut points: the trim is `s[a..b]` with only whitespace before `a` and from `b` on. |
| `Strings.TrimRemovesOuterWhitespace` | src/models/contact.model.js:10 | The trimmed string is the slice of the input between a whitespace-only prefix and a whitespace-only suffix. |
| `Strings.TrimCharacterized` | src/models/contact.model.js:10 | Any such slice with no whitespace at either end of its own is the trim, so the two facts determine `trim` completely. |
| `Strings.TrimStable` | src/models/contact.model.js:10 | A string with no whitespace at either end is its own trim. |
| `Strings.Lower` | src/models/contact.model.js:17 | Lower-casing keeps the length, maps each character independently, leaves no upper-case letter and keeps a trimmed string trimmed. |
| `Strings.IndexOf` | src/middlewares/cors.js:27 | `-1` iff the pattern occurs nowhere; otherwise the first position where it occurs. |

## Left out

- Refresh-token rotation, logout revocation, and the consumption of reset-password and verify-email tokens belong to the auth service, which is not part of this model. `refreshTokens`, `resetPassword` and `verifyEmail` only call that service, so they are not modelled. `forgotPassword` and `sendVerificationEmail` call the modelled token generators (`TokenService.GenerateResetPasswordToken`, `TokenService.GenerateVerifyEmailToken`) and then the email service; the handlers themselves are not modelled, because all that remains of them is sending the email and answering 204. `authService.logout` is a parameter of `Logout`.
- Signing and verification are abstract (`Sign`, `Verify`); JWT encoding, HMAC and `jwt.decode` are not modelled. `jwt.decode` of the Google id token is the `decode` parameter.
- The source reads the clock separately for each token (`moment()` at src/services/token.service.js:21, 69 and 72). The model reads it once per operation, as `now`, so `iat` and both expiries share one instant.
- Time is seconds as a natural number. moment's calendar arithmetic (daylight-saving shifts for day offsets) and the millisecond part of `toDate()` are not modelled.
- Mongo persistence is a sequence of records. Database ids for new contacts are one past the largest id in use (`ContactService.FreshId`) rather than ObjectIds. The `toJSON` and `paginate` plugins, the `timestamps` option and index creation are not modelled.
- `queryContacts` is a direct pass-through to `paginate`. Only `getContacts`' split of the query (`ContactController.ContactsQuery`) is modelled; no route reaches `getContacts`.
- `Pick` follows the usual behaviour of the shared `pick` helper, which is not part of this model: keep the listed keys that are present.
- The user model and user service are not part of this model. `getUserByEmail`, `findById` and `findAndUpdateUserByEmail` are parameters. So are `createUser` and `loginUserWithEmailAndPassword`, whose outcomes `Register` and `Login` receive.
- The Google OAuth code exchange is the `exchange` parameter of `VerifyGoogleOauth`, and the logger call there is omitted.
- Express plumbing (`res.cookie`, `res.redirect`, `res.status`, `catchAsync`, the error handler) is reduced to the `Response` and `Reply` values and to `Err` results.
- Environment loading in config.js (dotenv, Joi) is not modelled; `Config.WithDefaults` takes its default lifetimes and domain as constants.
- The cookie names `AUTH_COOKIE` and `AUTH_COOKIE_REFRESH` live in a constants file that is not part of this model. They are the `CookieNames` parameter.
- The Joi request schemas, the routes and the sleep helper are not modelled; the handlers take already-parsed inputs.
- `Strings.Lower` lower-cases ASCII letters only; Unicode case mapping is not modelled.
- WHATWG URL parsing is the `hostname` parameter of the CORS functions, and the `/localhost/` regular expression is modelled as a substring search.
- `Passport.TokenExtractor` takes the bearer token as already extracted from the `Authorization` header; the header parsing belongs to the passport-jwt library.
- `TokenService.GenerateGoogleUserToken`: a decoded id token missing a claim is not modelled; claims are total when decoding succeeds.
- `ContactService.GetAllContactsForUser`: the order among contacts with the same `starred` value is store order in the model; the database sort leaves it unspecified, and the contract states only the starred-first order.
- `ContactService.UpdateStarContactById`: saving after the flag changes does not re-run the other validators. Under the invariant they already hold, so no error path is lost.
- `AuthController.IssueSession`: sets the corrected, expiring cookies (`AuthCookies`) where the source sets cookies with no expiry (`AuthCookiesAsWritten`, src/controllers/auth.controller.js:47-48); `AuthCookiesDifferOnlyInExpiry` states that nothing else differs.
- `AuthController.Register`: sets the corrected, expiring cookies (`AuthCookies`) where the source sets cookies with no expiry (`AuthCookiesAsWritten`, src/controllers/auth.controller.js:47-48); `AuthCookiesDifferOnlyInExpiry` states that nothing else differs.
- `AuthController.Login`: sets the corrected, expiring cookies (`AuthCookies`) where the source sets cookies with no expiry (`AuthCookiesAsWritten`, src/controllers/auth.controller.js:56-57); `AuthCookiesDifferOnlyInExpiry` states that nothing else differs.
- `AuthController.VerifyGoogleOauth`: sets the corrected, expiring cookies. The source sets cookies with no expiry (src/controllers/auth.controller.js:102-103).

## Findings

| source | as written | input that shows it | evidently intended | confidence | as-written member | corrected member |
|---|---|---|---|---|---|---|
| src/controllers/auth.controller.js:47-48 | `register`, `login` (56-57) and `verifyGoogleOauth` (102-103) pass the token string to `createSetCookiOptions`, which reads `.expires` from it. A string has no such property, so `expires` is undefined and both auth cookies are session cookies. | Any successful login: the 30-minute access token and the 30-day refresh token both get cookies with no `Expires` attribute. | Pass the `{token, expires}` object, as the function's documentation describes, so that each cookie expires with its token. | high, not executed | `AuthController.AuthCookiesAsWritten`, `AuthController.AsWrittenCookiesNeverExpire` | `AuthController.AuthCookies`, `AuthController.AuthCookiesExpireWithTokens` |

=== FILE: auth_controller.dfy ===
/** The token and cookie decisions of the auth controller
    (src/controllers/auth.controller.js): cookie options, what `register`,
    `login`, `logout` and `verifyGoogleOauth` put in the response, and when.

    Collaborators whose code is not part of this model enter as parameters:
    the outcome of `userService.createUser`,
    `authService.loginUserWithEmailAndPassword`, `authService.logout` and
    `authService.getGoogleOauth`. */
module AuthController {
  import opened Outcomes
  import opened Jwt
  import opened Config
  import opened Users
  import opened TokenService
  import opened Passport

  /** What is passed to `createSetCookiOptions`: the `{token, expires}` object
      or the bare token string (which has no `expires` property). */
  datatype CookieArg = TokenObject(expiring: Expiring) | TokenString(token: Token)

  /** Cookie attributes; `expires`, `httpOnly` and `secure` are those of
      section 4.1.2 of RFC 6265. An absent `expires` makes a session cookie. */
  datatype CookieOptions = CookieOptions(expires: Option<nat>, httpOnly: bool, secure: bool, sameSite: string)

  datatype CookieOp =
    | SetCookie(name: string, value: Token, options: CookieOptions)
    | ClearCookie(name: string, options: CookieOptions)

  datatype Body = NoBody | UserAndTokens(user: User, tokens: AuthTokens)

  datatype Response = Response(status: nat, cookies: seq<CookieOp>, body: Body, location: Option<string>)

  const CODE_MISSING := ApiError(BAD_REQUEST, "Code Missing!")
  const OAUTH_ERROR_PATH := "oauth/error"

  /** `createSetCookiOptions(token)`: always HttpOnly and SameSite=lax, Secure
      exactly in production, and `expires` read from the argument's
      `expires` property. */
  function CreateSetCookieOptions(arg: CookieArg, env: Env): (o: CookieOptions)
    ensures o.httpOnly && o.sameSite == "lax"
    ensures o.secure <==> env == Production
    ensures arg.TokenObject? ==> o.expires == Some(arg.expiring.expires)
    ensures arg.TokenString? ==> o.expires.None?
  {
    var expires := match arg
      case TokenObject(e) => Some(e.expires)
      case TokenString(_) => None;
    CookieOptions(expires, true, env == Production, "lax")
  }

  /** `createClearCookiOptions()`: the attributes used to clear a cookie. */
  function CreateClearCookieOptions(env: Env): (o: CookieOptions)
    ensures o.expires.None?
    ensures forall arg :: o == CreateSetCookieOptions(arg, env).(expires := None)
  {
    CookieOptions(None, true, env == Production, "lax")
  }

  /** The two `res.cookie` calls of `register`, `login` and
      `verifyGoogleOauth` as the source writes them: the token STRING is
      passed to `createSetCookiOptions`. */
  function AuthCookiesAsWritten(names: CookieNames, tokens: AuthTokens, env: Env): (ops: seq<CookieOp>)
    ensures |ops| == 2 && ops[0].SetCookie? && ops[1].SetCookie?
    ensures ops[0].name == names.access && ops[0].value == tokens.access.token
    ensures ops[1].name == names.refresh && ops[1].value == tokens.refresh.token
  {
    [SetCookie(names.access, tokens.access.token, CreateSetCookieOptions(TokenString(tokens.access.token), env)),
     SetCookie(names.refresh, tokens.refresh.token, CreateSetCookieOptions(TokenString(tokens.refresh.token), env))]
  }

  /** As written, neither auth cookie carries an expiry, whatever the tokens'
      lifetimes: both are session cookies. */
  lemma AsWrittenCookiesNeverExpire(names: CookieNames, tokens: AuthTokens, env: Env)
    ensures forall op :: op in AuthCookiesAsWritten(names, tokens, env) ==> op.options.expires.None?
    ensures AuthCookiesAsWritten(names, tokens, env)[0].options.expires != Some(tokens.access.expires)
  {
  }

  /** The auth cookies as intended: the `{token, expires}` object is passed to
      `createSetCookiOptions`, so each cookie expires with its token. */
  function AuthCookies(names: CookieNames, tokens: AuthTokens, env: Env): (ops: seq<CookieOp>)
    ensures |ops| == 2 && ops[0].SetCookie? && ops[1].SetCookie?
    ensures ops[0].name == names.access && ops[0].value == tokens.access.token
    ensures ops[1].name == names.refresh && ops[1].value == tokens.refresh.token
    ensures ops[0].options.expires == Some(tokens.access.expires)
    ensures ops[1].options.expires == Some(tokens.refresh.expires)
  {
    [SetCookie(names.access, tokens.access.token, CreateSetCookieOptions(TokenObject(tokens.access), env)),
     SetCookie(names.refresh, tokens.refresh.token, CreateSetCookieOptions(TokenObject(tokens.refresh), env))]
  }

  /** A cookie operation with its `expires` attribute removed. */
  function DropExpiry(op: CookieOp): CookieOp {
    match op
    case SetCookie(name, value, o) => SetCookie(name, value, o.(expires := None))
    case ClearCookie(name, o) => ClearCookie(name, o.(expires := None))
  }

  /** The corrected cookies differ from the ones the source sets only in
      their expiry: same names, values, HttpOnly, Secure and SameSite. So a
      client that keeps them ends up with the same cookie values either way,
      and every authentication property of the corrected handlers holds of
      the source's cookies until the browser session ends. */
  lemma AuthCookiesDifferOnlyInExpiry(names: CookieNames, tokens: AuthTokens, env: Env, jar: map<string, Token>)
    ensures var fixed := AuthCookies(names, tokens, env);
            var written := AuthCookiesAsWritten(names, tokens, env);
            && |fixed| == |written|
            && (forall i :: 0 <= i < |fixed| ==> DropExpiry(fixed[i]) == written[i])
            && fixed != written
            && ApplyCookies(jar, fixed) == ApplyCookies(jar, written)
  {
    var fixed := AuthCookies(names, tokens, env);
    var written := AuthCookiesAsWritten(names, tokens, env);
    assert fixed[1..][1..] == [] && written[1..][1..] == [];
  }

  /** For freshly issued tokens, each corrected cookie expires exactly when
      the JWT inside it does (its `exp` claim). */
  lemma AuthCookiesExpireWithTokens(user: User, store: TokenStore, cfg: Config, names: CookieNames, now: nat)
    ensures var tokens := GenerateAuthTokens(user, store, cfg, now).value;
            var ops := AuthCookies(names, tokens, cfg.env);
            && ops[0].options.expires == Some(ops[0].value.payload.exp)
            && ops[1].options.expires == Some(ops[1].value.payload.exp)
  {
  }

  /** The response shared by `register` and `login` once a user is known:
      an auth token pair is issued, both cookies are set, and the body holds
      the user and the tokens. */
  function IssueSession(user: User, status: nat, store: TokenStore, cfg: Config, names: CookieNames,
                        now: nat): (r: Effect<Response, TokenStore>)
    ensures && r.result.Ok? && r.result.value.status == status && r.result.value.location.None?
            && r.result.value.body.UserAndTokens? && r.result.value.body.user == user
            && var tokens := r.result.value.body.tokens;
               && tokens.access.expires == now + cfg.jwt.accessExpirationMinutes * SECONDS_PER_MINUTE
               && tokens.refresh.expires == now + cfg.jwt.refreshExpirationDays * SECONDS_PER_DAY
               && tokens == GenerateAuthTokens(user, store, cfg, now).value
               && r.result.value.cookies == AuthCookies(names, tokens, cfg.env)
               && r.state == store + [TokenRecord(tokens.refresh.token, user.id, tokens.refresh.expires, Refresh, false)]
  {
    var issued := GenerateAuthTokens(user, store, cfg, now);
    Effect(Ok(Response(status, AuthCookies(names, issued.value, cfg.env), UserAndTokens(user, issued.value), None)),
           issued.store)
  }

  /** `register`: the created user (or the error creating it) comes from the
      user service; on success the answer is 201 with both auth cookies. */
  function Register(created: Result<User>, store: TokenStore, cfg: Config, names: CookieNames, now: nat): (r: Effect<Response, TokenStore>)
    ensures created.Err? ==> r == Effect(Err(created.error), store)
    ensures created.Ok? ==>
              && r.result.Ok? && r.result.value.status == CREATED
              && r.result.value.body.UserAndTokens? && r.result.value.body.user == created.value
              && var tokens := r.result.value.body.tokens;
                 && tokens == GenerateAuthTokens(created.value, store, cfg, now).value
                 && r.result.value.cookies == AuthCookies(names, tokens, cfg.env)
                 && r.state == store + [TokenRecord(tokens.refresh.token, created.value.id, tokens.refresh.expires, Refresh, false)]
  {
    match created
    case Err(e) => Effect(Err(e), store)
    case Ok(user) => IssueSession(user, CREATED, store, cfg, names, now)
  }

  /** `login`: the authenticated user (or the credential error) comes from the
      auth service; on success the answer is 200 with both auth cookies. */
  function Login(authenticated: Result<User>, store: TokenStore, cfg: Config, names: CookieNames, now: nat): (r: Effect<Response, TokenStore>)
    ensures authenticated.Err? ==> r == Effect(Err(authenticated.error), store)
    ensures authenticated.Ok? ==>
              && r.result.Ok? && r.result.value.status == OK
              && r.result.value.body.UserAndTokens? && r.result.value.body.user == authenticated.value
              && var tokens := r.result.value.body.tokens;
                 && tokens == GenerateAuthTokens(authenticated.value, store, cfg, now).value
                 && r.result.value.cookies == AuthCookies(names, tokens, cfg.env)
                 && r.state == store + [TokenRecord(tokens.refresh.token, authenticated.value.id, tokens.refresh.expires, Refresh, false)]
  {
    match authenticated
    case Err(e) => Effect(Err(e), store)
    case Ok(user) => IssueSession(user, OK, store, cfg, names, now)
  }

  /** A client that stores every cookie it is sent and drops every cookie it is
      told to clear. */
  function ApplyCookies(jar: map<string, Token>, ops: seq<CookieOp>): (r: map<string, Token>)
    decreases |ops|
  {
    if |ops| == 0 then jar
    else match ops[0]
      case SetCookie(name, value, _) => ApplyCookies(jar[name := value], ops[1..])
      case ClearCookie(name, _) => ApplyCookies(jar - {name}, ops[1..])
  }

  /** A request that carries only the auth cookies issued for `user` is
      authenticated as `user` while the ACCESS token lives, whatever else the
      client's jar held. */
  lemma IssuedCookiesAuthenticate(user: User, store: TokenStore, cfg: Config, names: CookieNames,
                                  jar: map<string, Token>, now: nat, later: nat, findById: UserId -> Option<User>)
    requires names.access != names.refresh
    requires findById(user.id) == Some(user)
    requires later < now + cfg.jwt.accessExpirationMinutes * SECONDS_PER_MINUTE
    ensures var ops := AuthCookies(names, GenerateAuthTokens(user, store, cfg, now).value, cfg.env);
            Authenticate(Request(None, Some(ApplyCookies(jar, ops))), cfg, names, later, findById) == Authenticated(user)
  {
    var tokens := GenerateAuthTokens(user, store, cfg, now).value;
    var ops := AuthCookies(names, tokens, cfg.env);
    var jar1 := jar[names.access := tokens.access.token];
    var jar2 := jar1[names.refresh := tokens.refresh.token];
    assert ops[1..][1..] == [];
    assert ApplyCookies(jar2, ops[1..][1..]) == jar2;
    assert ApplyCookies(jar1, ops[1..]) == jar2;
    assert ApplyCookies(jar, ops) == jar2;
  }

  /** After a successful login, a request that carries only the cookies the
      response set is authenticated as the logged-in user while the ACCESS
      token lives. */
  lemma LoginCookieAuthenticates(user: User, store: TokenStore, cfg: Config, names: CookieNames,
                                 jar: map<string, Token>, now: nat, later: nat, findById: UserId -> Option<User>)
    requires names.access != names.refresh
    requires findById(user.id) == Some(user)
    requires later < now + cfg.jwt.accessExpirationMinutes * SECONDS_PER_MINUTE
    ensures var r := Login(Ok(user), store, cfg, names, now);
            && r.result.Ok?
            && Authenticate(Request(None, Some(ApplyCookies(jar, r.result.value.cookies))), cfg, names, later, findById)
               == Authenticated(user)
  {
    IssuedCookiesAuthenticate(user, store, cfg, names, jar, now, later, findById);
  }

  /** After a successful registration, the cookies the response set
      authenticate the new user while the ACCESS token lives. */
  lemma RegisterCookieAuthenticates(user: User, store: TokenStore, cfg: Config, names: CookieNames,
                                    jar: map<string, Token>, now: nat, later: nat, findById: UserId -> Option<User>)
    requires names.access != names.refresh
    requires findById(user.id) == Some(user)
    requires later < now + cfg.jwt.accessExpirationMinutes * SECONDS_PER_MINUTE
    ensures var r := Register(Ok(user), store, cfg, names, now);
            && r.result.Ok? && r.result.value.status == CREATED
            && Authenticate(Request(None, Some(ApplyCookies(jar, r.result.value.cookies))), cfg, names, later, findById)
               == Authenticated(user)
  {
    IssuedCookiesAuthenticate(user, store, cfg, names, jar, now, later, findById);
  }

  /** The REFRESH token never authenticates a request: presented as a bearer
      token while valid, `jwtVerify` rejects it for its type. */
  lemma RefreshTokenRejected(user: User, store: TokenStore, cfg: Config, names: CookieNames,
                             cookies: Option<map<string, Token>>, now: nat, later: nat, findById: UserId -> Option<User>)
    requires later < now + cfg.jwt.refreshExpirationDays * SECONDS_PER_DAY
    ensures var tokens := GenerateAuthTokens(user, store, cfg, now).value;
            Authenticate(Request(Some(tokens.refresh.token), cookies), cfg, names, later, findById)
              == Rejected(INVALID_TOKEN_TYPE)
  {
  }

  const NO_COOKIE_JAR := Crash("Cannot read properties of undefined")

  /** The refresh token `logout` hands to the auth service: the
      `AUTH_COOKIE_REFRESH` cookie when it is truthy, else the body's
      `refreshToken` (which may be absent). Reading a cookie of a request
      without a cookie jar is a TypeError. */
  function LogoutRefreshToken(cookies: Option<map<string, Token>>, bodyRefresh: Option<Token>,
                              names: CookieNames): (r: Result<Option<Token>>)
    ensures cookies.None? <==> r == Err(NO_COOKIE_JAR)
    ensures cookies.Some? ==>
              var jar := cookies.value;
              && (names.refresh in jar && Truthy(jar[names.refresh]) ==> r == Ok(Some(jar[names.refresh])))
              && (!(names.refresh in jar && Truthy(jar[names.refresh])) ==> r == Ok(bodyRefresh))
  {
    match cookies
    case None => Err(NO_COOKIE_JAR)
    case Some(jar) =>
      if names.refresh in jar && Truthy(jar[names.refresh]) then Ok(Some(jar[names.refresh]))
      else Ok(bodyRefresh)
  }

  /** `logout`: the auth service's logout must complete before both cookies
      are cleared and 204 is answered; if it fails, its error is the answer
      and no cookie is touched. `authLogout` is that service call. */
  function Logout(req: Request, bodyRefresh: Option<Token>, names: CookieNames, env: Env,
                  authLogout: Option<Token> -> Outcome): (r: Result<Response>)
    ensures var t := LogoutRefreshToken(req.cookies, bodyRefresh, names);
            && (t.Err? ==> r == Err(t.error))
            && (t.Ok? && authLogout(t.value).Fail? ==> r == Err(authLogout(t.value).error))
            && (r.Ok? <==> t.Ok? && authLogout(t.value).Pass?)
    ensures r.Ok? ==>
              && r.value.status == NO_CONTENT
              && r.value.cookies == [ClearCookie(names.access, CreateClearCookieOptions(env)),
                                     ClearCookie(names.refresh, CreateClearCookieOptions(env))]
  {
    var refreshToken :- LogoutRefreshToken(req.cookies, bodyRefresh, names);
    match authLogout(refreshToken)
    case Fail(e) => Err(e)
    case Pass =>
      Ok(Response(NO_CONTENT,
                  [ClearCookie(names.access, CreateClearCookieOptions(env)),
                   ClearCookie(names.refresh, CreateClearCookieOptions(env))],
                  NoBody, None))
  }

  /** After a successful logout, a request carrying only the client's cookies
      is no longer authenticated, whatever the jar held before. */
  lemma LogoutEndsCookieSession(req: Request, bodyRefresh: Option<Token>, names: CookieNames, cfg: Config,
                                authLogout: Option<Token> -> Outcome, jar: map<string, Token>,
                                now: nat, findById: UserId -> Option<User>)
    requires Logout(req, bodyRefresh, names, cfg.env, authLogout).Ok?
    ensures var r := Logout(req, bodyRefresh, names, cfg.env, authLogout).value;
            Authenticate(Request(None, Some(ApplyCookies(jar, r.cookies))), cfg, names, now, findById) == Unauthenticated
  {
    var r := Logout(req, bodyRefresh, names, cfg.env, authLogout).value;
    var jar1 := jar - {names.access};
    var jar2 := jar1 - {names.refresh};
    assert r.cookies[1..][1..] == [];
    assert ApplyCookies(jar2, r.cookies[1..][1..]) == jar2;
    assert ApplyCookies(jar1, r.cookies[1..]) == jar2;
    assert ApplyCookies(jar, r.cookies) == jar2;
  }

  /** What `authService.getGoogleOauth(code)` resolves to. */
  datatype GoogleGrant = GoogleGrant(idToken: Option<string>, accessToken: Option<string>)

  /** `verifyGoogleOauth`: BAD_REQUEST when `code` is missing. Otherwise any
      failure of the code exchange or of the Google token generation
      redirects to `<domain>oauth/error` without cookies and without touching
      the store; success sets both auth cookies and redirects to `<domain>`.
      `exchange` is the OAuth code exchange (None when it fails). */
  function VerifyGoogleOauth(code: Option<string>, exchange: string -> Option<GoogleGrant>,
                             decode: string -> Option<GoogleClaims>, findAndUpdate: UserDraft -> Option<User>,
                             store: TokenStore, cfg: Config, names: CookieNames,
                             now: nat, nowMillis: nat): (r: Effect<Response, TokenStore>)
    ensures !Present(code) ==> r == Effect(Err(CODE_MISSING), store)
    ensures Present(code) ==> r.result.Ok? && r.result.value.status == FOUND && r.result.value.body == NoBody
    ensures Present(code) && exchange(code.value).None? ==>
              r == Effect(Ok(Response(FOUND, [], NoBody, Some(cfg.domain + OAUTH_ERROR_PATH))), store)
    ensures Present(code) && exchange(code.value).Some? ==>
              var grant := exchange(code.value).value;
              var g := GenerateGoogleUserToken(grant.idToken, grant.accessToken, decode, findAndUpdate,
                                               store, cfg, now, nowMillis);
              && r.state == g.state
              && (g.result.Err? ==> r.result.value == Response(FOUND, [], NoBody, Some(cfg.domain + OAUTH_ERROR_PATH)))
              && (g.result.Ok? ==> r.result.value == Response(FOUND, AuthCookies(names, g.result.value, cfg.env),
                                                             NoBody, Some(cfg.domain)))
  {
    if !Present(code) then Effect(Err(CODE_MISSING), store)
    else
      var failed := Response(FOUND, [], NoBody, Some(cfg.domain + OAUTH_ERROR_PATH));
      match exchange(code.value)
      case None => Effect(Ok(failed), store)
      case Some(grant) =>
        var g := GenerateGoogleUserToken(grant.idToken, grant.accessToken, decode, findAndUpdate,
                                         store, cfg, now, nowMillis);
        match g.result
        case Err(_) => Effect(Ok(failed), store)
        case Ok(tokens) => Effect(Ok(Response(FOUND, AuthCookies(names, tokens, cfg.env), NoBody, Some(cfg.domain))), g.state)
  }

  /** A successful Google callback redirects to the front end with cookies
      that authenticate the user the directory returned, while the ACCESS
      token lives. */
  lemma GoogleCookiesAuthenticate(code: Option<string>, exchange: string -> Option<GoogleGrant>,
                                  decode: string -> Option<GoogleClaims>, findAndUpdate: UserDraft -> Option<User>,
                                  store: TokenStore, cfg: Config, names: CookieNames, now: nat, nowMillis: nat,
                                  jar: map<string, Token>, later: nat, findById: UserId -> Option<User>, user: User)
    requires Present(code) && exchange(code.value).Some?
    requires Present(exchange(code.value).value.idToken) && Present(exchange(code.value).value.accessToken)
    requires decode(exchange(code.value).value.idToken.value).Some?
    requires findAndUpdate(GoogleUserDraft(decode(exchange(code.value).value.idToken.value).value, nowMillis)) == Some(user)
    requires names.access != names.refresh
    requires findById(user.id) == Some(user)
    requires later < now + cfg.jwt.accessExpirationMinutes * SECONDS_PER_MINUTE
    ensures var r := VerifyGoogleOauth(code, exchange, decode, findAndUpdate, store, cfg, names, now, nowMillis);
            && r.result.Ok? && r.result.value.location == Some(cfg.domain)
            && Authenticate(Request(None, Some(ApplyCookies(jar, r.result.value.cookies))), cfg, names, later, findById)
               == Authenticated(user)
  {
    IssuedCookiesAuthenticate(user, store, cfg, names, jar, now, later, findById);
  }
}

=== FILE: config.dfy ===
/** The process configuration the core reads: environment name, JWT secret and
    lifetimes, and the redirect domain. Loading it from the environment is not
    modelled; `WithDefaults` gives the values used when the optional
    variables are unset. */
module Config {

  /** `NODE_ENV`, restricted by the schema to these three values. */
  datatype Env = Production | Development | Test

  datatype JwtConfig = JwtConfig(
    secret: string,
    accessExpirationMinutes: nat,
    refreshExpirationDays: nat,
    resetPasswordExpirationMinutes: nat,
    verifyEmailExpirationMinutes: nat)

  datatype Config = Config(env: Env, jwt: JwtConfig, domain: string)

  const DEFAULT_ACCESS_EXPIRATION_MINUTES: nat := 30
  const DEFAULT_REFRESH_EXPIRATION_DAYS: nat := 30
  const DEFAULT_RESET_PASSWORD_EXPIRATION_MINUTES: nat := 10
  const DEFAULT_VERIFY_EMAIL_EXPIRATION_MINUTES: nat := 10
  const DEFAULT_DOMAIN: string := "localhost"

  /** Time is counted in whole seconds. */
  const SECONDS_PER_MINUTE: nat := 60
  const SECONDS_PER_DAY: nat := 86400

  /** The configuration when only the required variables are set. */
  function WithDefaults(env: Env, secret: string): (c: Config)
    ensures c.env == env && c.jwt.secret == secret
    ensures c.jwt.accessExpirationMinutes * SECONDS_PER_MINUTE == 1800
    ensures c.jwt.refreshExpirationDays * SECONDS_PER_DAY == 2592000
    ensures c.jwt.resetPasswordExpirationMinutes * SECONDS_PER_MINUTE == 600
    ensures c.jwt.verifyEmailExpirationMinutes * SECONDS_PER_MINUTE == 600
    ensures c.domain == "localhost"
  {
    Config(env,
           JwtConfig(secret,
                     DEFAULT_ACCESS_EXPIRATION_MINUTES,
                     DEFAULT_REFRESH_EXPIRATION_DAYS,
                     DEFAULT_RESET_PASSWORD_EXPIRATION_MINUTES,
                     DEFAULT_VERIFY_EMAIL_EXPIRATION_MINUTES),
           DEFAULT_DOMAIN)
  }

  /** The two auth cookie names, `AUTH_COOKIE` and `AUTH_COOKIE_REFRESH`. */
  datatype CookieNames = CookieNames(access: string, refresh: string)
}

=== FILE: contact_controller.dfy ===
/** The contact routes' handlers (src/controllers/contact.controller.js).
    Each runs for an authenticated `caller` and delegates to the contact
    service; a thrown ApiError reaches the error handler as the Err of the
    effect, with the store unchanged. */
module ContactController {
  import opened Outcomes
  import opened Seqs
  import opened Strings
  import opened ContactModel
  import opened ContactService
  import Users

  /** The status and body `res.status(...).send(...)` answers with. */
  datatype Reply<+T> = Reply(status: nat, body: T)

  /** `createContact`: the body is created with `created_by` overwritten by
      the caller's id, and answered with CREATED. */
  function CreateContact(store: ContactStore, caller: Users.User, body: NewContact, isEmail: string -> bool)
    : (r: Effect<Reply<Contact>, ContactStore>)
    ensures r.result.Err? ==> r.state == store
    ensures r.result.Ok? ==>
              var c := r.result.value.body;
              && r.result.value.status == CREATED
              && c.createdBy == caller.id
              && r.state == store + [c]
              && c.name == Trim(body.name) && c.email == NormalizeEmail(body.email)
              && c.starred == (body.starred == Some(true))
    ensures IsEmailTaken(store, body.email, None) ==> r == Effect(Err(EMAIL_TAKEN), store)
    ensures !IsEmailTaken(store, body.email, None) ==>
              (r.result.Ok? <==> ValidationFailures(CastNew(body.(createdBy := Some(caller.id))), isEmail) == map[])
  {
    var created := ContactService.CreateContact(store, body.(createdBy := Some(caller.id)), isEmail);
    match created.result
    case Err(e) => Effect(Err(e), store)
    case Ok(c) => Effect(Ok(Reply(CREATED, c)), created.state)
  }

  /** Whatever owner the request body names, the new contact belongs to the
      caller: two bodies that differ only in `created_by` have the same
      outcome. */
  lemma CreateIgnoresClaimedOwner(store: ContactStore, caller: Users.User, body: NewContact,
                                  claimed: Option<UserId>, isEmail: string -> bool)
    ensures CreateContact(store, caller, body, isEmail) == CreateContact(store, caller, body.(createdBy := claimed), isEmail)
  {
  }

  /** `starred = starred === 'true'`: only the exact query string `true`. */
  function StarredFlag(query: Option<string>): (b: bool)
    ensures b <==> query == Some("true")
  {
    match query
    case Some(q) => q == "true"
    case None => false
  }

  /** `getAllContactsForUser`: the caller's contacts, starred first, only the
      starred ones when the `starred` query is the string `true`. */
  function GetAllContactsForUser(store: ContactStore, caller: Users.User, starredQuery: Option<string>)
    : (r: Reply<seq<Contact>>)
    ensures r.status == OK
    ensures forall c :: c in r.body <==> c in store && c.createdBy == caller.id && (starredQuery == Some("true") ==> c.starred)
    ensures multiset(r.body) == multiset(Filter(store, SelectedBy(caller.id, starredQuery == Some("true"))))
    ensures StarredFirst(r.body)
  {
    Reply(OK, ContactService.GetAllContactsForUser(store, caller.id, StarredFlag(query := starredQuery)))
  }

  /** Any `starred` query other than exactly `true` (such as `TRUE` or `1`)
      lists every contact of the caller. */
  lemma OtherStarredQueriesListAll(store: ContactStore, caller: Users.User, q: string, c: Contact)
    requires q != "true"
    requires c in store && c.createdBy == caller.id
    ensures c in GetAllContactsForUser(store, caller, Some(q)).body
  {
  }

  /** `getContact`: the caller's contact with this id, NOT_FOUND otherwise. */
  function GetContact(store: ContactStore, caller: Users.User, contactId: ContactId): (r: Result<Reply<Contact>>)
    ensures r.Ok? ==> r.value.status == OK && r.value.body in store && r.value.body.id == contactId
                      && r.value.body.createdBy == caller.id
    ensures r.Err? <==> r == Err(CONTACT_NOT_FOUND)
    ensures r.Err? <==> forall c :: c in store ==> !(c.id == contactId && c.createdBy == caller.id)
  {
    match GetContactById(store, contactId, caller.id)
    case None => Err(CONTACT_NOT_FOUND)
    case Some(c) => Ok(Reply(OK, c))
  }

  /** `updateContact`: the update body is applied with `created_by` forced to
      the caller's id. */
  function UpdateContact(store: ContactStore, caller: Users.User, contactId: ContactId, body: ContactUpdate,
                         isEmail: string -> bool): (r: Effect<Reply<Contact>, ContactStore>)
    ensures r.result.Err? ==> r.state == store
    ensures r.result.Ok? ==> r.result.value.status == OK && r.result.value.body.createdBy == caller.id
                             && r.result.value.body.id == contactId
    ensures OwnedIndex(store, contactId, caller.id).None? ==> r == Effect(Err(CONTACT_NOT_FOUND), store)
    ensures (&& OwnedIndex(store, contactId, caller.id).Some?
             && !(body.email.Some? && body.email.value != "" && IsEmailTaken(store, body.email.value, Some(contactId))))
            ==> (r.result.Ok? <==>
                   ValidationFailures(CastUpdate(store[OwnedIndex(store, contactId, caller.id).value],
                                                 body.(createdBy := Some(caller.id))), isEmail) == map[])
    ensures (&& OwnedIndex(store, contactId, caller.id).Some? && body.email.Some? && body.email.value != ""
             && IsEmailTaken(store, body.email.value, Some(contactId)))
            ==> r == Effect(Err(EMAIL_TAKEN), store)
    ensures r.result.Ok? ==>
              && OwnedIndex(store, contactId, caller.id).Some?
              && var i := OwnedIndex(store, contactId, caller.id).value;
                 var c := r.result.value.body;
                 && r.state == store[i := c]
                 && c.name == (if body.name.Some? then Trim(body.name.value) else store[i].name)
                 && c.email == (if body.email.Some? then NormalizeEmail(body.email.value) else store[i].email)
                 && c.starred == body.starred.GetOr(store[i].starred)
  {
    var updated := UpdateContactById(store, contactId, caller.id, body.(createdBy := Some(caller.id)), isEmail);
    match updated.result
    case Err(e) => Effect(Err(e), store)
    case Ok(c) => Effect(Ok(Reply(OK, c)), updated.state)
  }

  /** An update through the controller never moves a contact to another
      owner: at every position the owner is the same before and after, and
      the collection invariant is kept. */
  lemma UpdateKeepsOwners(store: ContactStore, caller: Users.User, contactId: ContactId, body: ContactUpdate,
                          isEmail: string -> bool)
    requires Invariant(store, isEmail)
    ensures var s := UpdateContact(store, caller, contactId, body, isEmail).state;
            && |s| == |store|
            && (forall i :: 0 <= i < |s| ==> s[i].createdBy == store[i].createdBy)
            && Invariant(s, isEmail)
  {
    UpdatePreservesInvariant(store, contactId, caller.id, body.(createdBy := Some(caller.id)), isEmail);
  }

  /** `deleteContact`: the removed contact, which was the caller's. */
  function DeleteContact(store: ContactStore, caller: Users.User, contactId: ContactId)
    : (r: Effect<Reply<Contact>, ContactStore>)
    ensures r.result.Err? <==> r == Effect(Err(USER_NOT_FOUND), store)
    ensures r.result.Ok? ==>
              var c := r.result.value.body;
              && r.result.value.status == OK && c.id == contactId && c.createdBy == caller.id
              && multiset(r.state) + multiset{c} == multiset(store)
    ensures r.result.Ok? <==> OwnedIndex(store, contactId, caller.id).Some?
    ensures r.result.Ok? ==> var i := OwnedIndex(store, contactId, caller.id).value;
                             r.state == store[..i] + store[i + 1..]
  {
    var deleted := DeleteContactById(store, contactId, caller.id);
    match deleted.result
    case Err(e) => Effect(Err(e), store)
    case Ok(c) => Effect(Ok(Reply(OK, c)), deleted.state)
  }

  /** `updateContactStar`: the `starred` field of the body, false when absent. */
  function UpdateContactStar(store: ContactStore, caller: Users.User, contactId: ContactId, starred: Option<bool>)
    : (r: Effect<Reply<Contact>, ContactStore>)
    ensures r.result.Err? <==> r == Effect(Err(USER_NOT_FOUND), store)
    ensures r.result.Ok? ==>
              var c := r.result.value.body;
              && r.result.value.status == OK && c.id == contactId && c.createdBy == caller.id
              && c.starred == (starred == Some(true))
              && c in r.state
    ensures r.result.Ok? <==> OwnedIndex(store, contactId, caller.id).Some?
    ensures r.result.Ok? ==>
              var i := OwnedIndex(store, contactId, caller.id).value;
              && r.result.value.body == store[i].(starred := starred == Some(true))
              && r.state == store[i := r.result.value.body]
  {
    var updated := UpdateStarContactById(store, contactId, caller.id, starred);
    match updated.result
    case Err(e) => Effect(Err(e), store)
    case Ok(c) =>
      assert updated.state[OwnedIndex(store, contactId, caller.id).value] == c;
      Effect(Ok(Reply(OK, c)), updated.state)
  }

  /** A caller's request never alters or removes another user's contact. */
  lemma CallerTouchesOnlyOwnContacts(store: ContactStore, caller: Users.User, contactId: ContactId,
                                     body: ContactUpdate, starred: Option<bool>, isEmail: string -> bool, c: Contact)
    requires c in store && c.createdBy != caller.id
    ensures c in UpdateContact(store, caller, contactId, body, isEmail).state
    ensures c in DeleteContact(store, caller, contactId).state
    ensures c in UpdateContactStar(store, caller, contactId, starred).state
  {
    OtherOwnersUntouched(store, contactId, caller.id, body.(createdBy := Some(caller.id)), starred, isEmail, c);
  }

  const FILTER_KEYS := {"name", "role"}
  const OPTION_KEYS := {"sortBy", "limit", "page"}

  /** `pick(object, keys)`: the entries of `object` whose key is listed. */
  function Pick(query: map<string, string>, keys: set<string>): (r: map<string, string>)
    ensures r.Keys == query.Keys * keys
    ensures forall k :: k in r ==> r[k] == query[k]
  {
    map k | k in query.Keys * keys :: query[k]
  }

  /** The query split `getContacts` hands to the paginated query: the filter
      and the options, which never share a key. */
  function ContactsQuery(query: map<string, string>): (r: (map<string, string>, map<string, string>))
    ensures r.0.Keys == query.Keys * FILTER_KEYS && r.1.Keys == query.Keys * OPTION_KEYS
    ensures r.0.Keys !! r.1.Keys
    ensures forall k :: k in r.0 ==> r.0[k] == query[k]
    ensures forall k :: k in r.1 ==> r.1[k] == query[k]
  {
    (Pick(query, FILTER_KEYS), Pick(query, OPTION_KEYS))
  }
}

=== FILE: contact_model.dfy ===
/** The contact document (src/models/contact.model.js): its fields, the
    setters and defaults applied when a value is assigned, the validators run
    on save, the `isEmailTaken` static and the collection-wide invariant the
    unique email index and the schema maintain.

    Mongoose applies a path's `trim` and `lowercase` setters to query values
    as well as to assigned values, so the email in `isEmailTaken`'s filter is
    normalised the same way as the stored one. */
module ContactModel {
  import opened Outcomes
  import opened Strings
  import Jwt

  type ContactId = nat
  type UserId = Jwt.UserId

  datatype Contact = Contact(id: ContactId, name: string, email: string, starred: bool, createdBy: UserId)

  type ContactStore = seq<Contact>

  /** The stored form of an email: trimmed and lower-cased. */
  function NormalizeEmail(s: string): (r: string)
    ensures Normalized(r)
  {
    Lower(Trim(s))
  }

  /** The form every stored email has: trimmed and without upper-case letters. */
  predicate Normalized(s: string) {
    Trimmed(s) && LowerCased(s)
  }

  /** Normalising drops the whitespace at the two ends of `s` and lower-cases
      every remaining character in place. */
  lemma NormalizeEmailContent(s: string)
    ensures exists a, b :: && 0 <= a <= b <= |s| && NormalizeEmail(s) == Lower(s[a..b])
                           && (forall i :: 0 <= i < a ==> IsWhitespace(s[i]))
                           && (forall i :: b <= i < |s| ==> IsWhitespace(s[i]))
  {
    TrimRemovesOuterWhitespace(s);
  }

  /** Exactly the normalised strings are left unchanged by normalisation, so
      normalising is idempotent. */
  lemma NormalizeEmailFixpoint(s: string)
    ensures NormalizeEmail(s) == s <==> Normalized(s)
    ensures NormalizeEmail(NormalizeEmail(s)) == NormalizeEmail(s)
  {
    if Normalized(s) {
      TrimStable(s);
      LowerStable(s);
    }
    var n := NormalizeEmail(s);
    TrimStable(n);
    LowerStable(n);
  }

  /** The order of the two setters does not matter: lower-casing never turns
      a character into whitespace or whitespace into anything else. */
  lemma {:induction false} TrimStartLower(s: string)
    ensures TrimStart(Lower(s)) == Lower(TrimStart(s))
    decreases |s|
  {
    if |s| > 0 {
      LowerCharWhitespace(s[0]);
    }
    if |s| > 0 && IsWhitespace(s[0]) {
      assert Lower(s)[1..] == Lower(s[1..]);
      TrimStartLower(s[1..]);
    }
  }

  lemma {:induction false} TrimEndLower(s: string)
    ensures TrimEnd(Lower(s)) == Lower(TrimEnd(s))
    decreases |s|
  {
    if |s| > 0 {
      LowerCharWhitespace(s[|s| - 1]);
    }
    if |s| > 0 && IsWhitespace(s[|s| - 1]) {
      assert Lower(s)[..|s| - 1] == Lower(s[..|s| - 1]);
      TrimEndLower(s[..|s| - 1]);
    }
  }

  lemma SetterOrderIrrelevant(s: string)
    ensures Trim(Lower(s)) == Lower(Trim(s))
  {
    TrimStartLower(s);
    TrimEndLower(TrimStart(s));
  }

  /** The values a document holds after the setters and defaults ran, before
      validation; `createdBy` may be missing. */
  datatype Draft = Draft(name: string, email: string, starred: bool, createdBy: Option<UserId>)

  const NAME_PATH := "name"
  const EMAIL_PATH := "email"
  const CREATED_BY_PATH := "created_by"
  const INVALID_EMAIL := "Invalid email"

  function RequiredMessage(path: string): string {
    "Path `" + path + "` is required."
  }

  /** The schema's validators: `name`, `email` and `created_by` are required
      (an empty string counts as missing), and a present email must satisfy
      the `isEmail` predicate. Each failing path carries the message of its
      first failing validator. */
  function ValidationFailures(d: Draft, isEmail: string -> bool): (f: map<string, string>)
    ensures f.Keys <= {NAME_PATH, EMAIL_PATH, CREATED_BY_PATH}
    ensures NAME_PATH in f <==> d.name == ""
    ensures CREATED_BY_PATH in f <==> d.createdBy.None?
    ensures EMAIL_PATH in f <==> d.email == "" || !isEmail(d.email)
    ensures EMAIL_PATH in f && d.email != "" ==> f[EMAIL_PATH] == INVALID_EMAIL
  {
    var nameFailure := if d.name == "" then map[NAME_PATH := RequiredMessage(NAME_PATH)] else map[];
    var emailFailure :=
      if d.email == "" then map[EMAIL_PATH := RequiredMessage(EMAIL_PATH)]
      else if !isEmail(d.email) then map[EMAIL_PATH := INVALID_EMAIL]
      else map[];
    var ownerFailure := if d.createdBy.None? then map[CREATED_BY_PATH := RequiredMessage(CREATED_BY_PATH)] else map[];
    nameFailure + emailFailure + ownerFailure
  }

  /** `save()`: the validated document under the given id, or the
      ValidationError listing every failing path. */
  function Save(d: Draft, id: ContactId, isEmail: string -> bool): (r: Result<Contact>)
    ensures r.Ok? <==> ValidationFailures(d, isEmail) == map[]
    ensures r.Err? ==> r.error == ValidationError(ValidationFailures(d, isEmail))
    ensures r.Ok? ==> && r.value.id == id && r.value.name == d.name && r.value.email == d.email
                      && r.value.starred == d.starred && Some(r.value.createdBy) == d.createdBy
  {
    var failures := ValidationFailures(d, isEmail);
    if failures == map[] then Ok(Contact(id, d.name, d.email, d.starred, d.createdBy.value))
    else Err(ValidationError(failures))
  }

  /** The filter of `isEmailTaken`, with `excludeContactId` possibly absent. */
  predicate Collides(c: Contact, email: string, excludeId: Option<ContactId>) {
    c.email == NormalizeEmail(email) && excludeId != Some(c.id)
  }

  /** `Contact.isEmailTaken(email, excludeContactId)`: some contact, whoever
      owns it, other than the excluded one holds the (normalised) email. */
  function IsEmailTaken(store: ContactStore, email: string, excludeId: Option<ContactId>): (b: bool)
    ensures b <==> exists i :: 0 <= i < |store| && Collides(store[i], email, excludeId)
  {
    if |store| == 0 then false
    else if Collides(store[0], email, excludeId) then true
    else
      var rest := IsEmailTaken(store[1..], email, excludeId);
      assert forall i :: 1 <= i < |store| ==> store[i] == store[1..][i - 1];
      rest
  }

  /** A stored contact satisfies the schema: a non-empty trimmed name and a
      non-empty normalised email accepted by `isEmail`. */
  ghost predicate WellFormed(c: Contact, isEmail: string -> bool) {
    && c.name != "" && Trimmed(c.name)
    && c.email != "" && Normalized(c.email) && isEmail(c.email)
  }

  /** The collection invariant: every contact is well formed, ids are unique,
      and emails are unique across the whole collection, not per owner. */
  ghost predicate Invariant(store: ContactStore, isEmail: string -> bool) {
    && (forall i :: 0 <= i < |store| ==> WellFormed(store[i], isEmail))
    && (forall i, j :: 0 <= i < j < |store| ==> store[i].id != store[j].id && store[i].email != store[j].email)
  }

  /** Appending a well-formed contact whose id and email are new keeps the
      invariant. */
  lemma AppendKeepsInvariant(store: ContactStore, c: Contact, isEmail: string -> bool)
    requires Invariant(store, isEmail) && WellFormed(c, isEmail)
    requires forall i :: 0 <= i < |store| ==> store[i].id != c.id && store[i].email != c.email
    ensures Invariant(store + [c], isEmail)
  {
    var s := store + [c];
    forall i | 0 <= i < |s|
      ensures WellFormed(s[i], isEmail)
    {
      if i < |store| { assert s[i] == store[i]; } else { assert s[i] == c; }
    }
    forall i, j | 0 <= i < j < |s|
      ensures s[i].id != s[j].id && s[i].email != s[j].email
    {
      assert s[i] == store[i];
      if j < |store| { assert s[j] == store[j]; } else { assert s[j] == c; }
    }
  }

  /** Replacing a contact by a well-formed one with the same id, whose email
      no other contact holds, keeps the invariant. */
  lemma ReplaceKeepsInvariant(store: ContactStore, k: nat, c: Contact, isEmail: string -> bool)
    requires Invariant(store, isEmail) && WellFormed(c, isEmail)
    requires k < |store| && c.id == store[k].id
    requires forall j :: 0 <= j < |store| && j != k ==> store[j].email != c.email
    ensures Invariant(store[k := c], isEmail)
  {
    var s := store[k := c];
    assert forall i :: 0 <= i < |s| && i != k ==> s[i] == store[i];
  }

  /** Removing a contact keeps the invariant. */
  lemma RemoveKeepsInvariant(store: ContactStore, k: nat, isEmail: string -> bool)
    requires Invariant(store, isEmail) && k < |store|
    ensures Invariant(store[..k] + store[k + 1..], isEmail)
  {
    var s := store[..k] + store[k + 1..];
    assert forall i :: 0 <= i < |s| ==> s[i] == store[if i < k then i else i + 1];
  }

  /** Under the invariant a contact never collides with itself: its own email
      is free once its own id is excluded, and taken by itself otherwise. */
  lemma NoSelfCollision(store: ContactStore, isEmail: string -> bool, k: nat)
    requires Invariant(store, isEmail)
    requires k < |store|
    ensures !IsEmailTaken(store, store[k].email, Some(store[k].id))
    ensures IsEmailTaken(store, store[k].email, None)
  {
    var e := store[k].email;
    NormalizeEmailFixpoint(e);
    assert Collides(store[k], e, None);
    forall i | 0 <= i < |store|
      ensures !Collides(store[i], e, Some(store[k].id))
    {
      if i != k {
        assert store[i].email != e;
      }
    }
  }
}

=== FILE: contact_service.dfy ===
/** The per-user contact operations (src/services/contact.service.js) over a
    store kept in insertion order. Every lookup is scoped to the owner: a
    contact is found only when both its id and its `created_by` match. */
module ContactService {
  import opened Outcomes
  import opened Seqs
  import opened Strings
  import opened ContactModel

  const EMAIL_TAKEN := ApiError(BAD_REQUEST, "Email already taken")
  const CONTACT_NOT_FOUND := ApiError(NOT_FOUND, "Contact not found")
  const USER_NOT_FOUND := ApiError(NOT_FOUND, "User not found")

  /** The body `createContact` receives. */
  datatype NewContact = NewContact(name: string, email: string, starred: Option<bool>, createdBy: Option<UserId>)

  /** An update body: only the present fields are assigned. */
  datatype ContactUpdate = ContactUpdate(name: Option<string>, email: Option<string>, starred: Option<bool>,
                                         createdBy: Option<UserId>)

  /** Largest id in use (0 for an empty store). */
  function MaxId(store: ContactStore): (m: nat)
    ensures forall i :: 0 <= i < |store| ==> store[i].id <= m
  {
    if |store| == 0 then 0
    else var rest := MaxId(store[1..]); if store[0].id > rest then store[0].id else rest
  }

  /** The id the database assigns to a new document: one no contact holds. */
  function FreshId(store: ContactStore): (id: ContactId)
    ensures forall i :: 0 <= i < |store| ==> store[i].id != id
  {
    MaxId(store) + 1
  }

  /** The document a creation body becomes once the setters and the `starred`
      default have run. */
  function CastNew(body: NewContact): Draft {
    Draft(Trim(body.name), NormalizeEmail(body.email), body.starred.GetOr(false), body.createdBy)
  }

  /** `createContact(contactBody)`: BAD_REQUEST "Email already taken" with the
      store unchanged when any contact, of any owner, holds the email;
      otherwise the validated contact is appended, or the validation error
      is returned with the store unchanged. */
  function CreateContact(store: ContactStore, body: NewContact, isEmail: string -> bool): (r: Effect<Contact, ContactStore>)
    ensures IsEmailTaken(store, body.email, None) ==> r == Effect(Err(EMAIL_TAKEN), store)
    ensures r.result.Err? ==> r.state == store
    ensures !IsEmailTaken(store, body.email, None) ==>
              (r.result.Ok? <==> ValidationFailures(CastNew(body), isEmail) == map[])
    ensures r.result.Ok? ==>
              var c := r.result.value;
              && r.state == store + [c]
              && c.name == Trim(body.name) && c.email == NormalizeEmail(body.email)
              && c.starred == (body.starred == Some(true)) && body.createdBy == Some(c.createdBy)
              && (forall i :: 0 <= i < |store| ==> store[i].id != c.id && store[i].email != c.email)
  {
    if IsEmailTaken(store, body.email, None) then Effect(Err(EMAIL_TAKEN), store)
    else match Save(CastNew(body), FreshId(store), isEmail)
      case Err(e) => Effect(Err(e), store)
      case Ok(c) =>
        assert forall i :: 0 <= i < |store| ==> !Collides(store[i], body.email, None);
        Effect(Ok(c), store + [c])
  }

  /** `createContact` keeps the collection invariant. */
  lemma CreatePreservesInvariant(store: ContactStore, body: NewContact, isEmail: string -> bool)
    requires Invariant(store, isEmail)
    ensures Invariant(CreateContact(store, body, isEmail).state, isEmail)
  {
    var r := CreateContact(store, body, isEmail);
    if r.result.Ok? {
      AppendKeepsInvariant(store, r.result.value, isEmail);
    }
  }

  /** The filter of `getContactById`. */
  predicate OwnedBy(c: Contact, contactId: ContactId, userId: UserId) {
    c.id == contactId && c.createdBy == userId
  }

  /** Position of the contact with this id owned by this user, if any. */
  function OwnedIndex(store: ContactStore, contactId: ContactId, userId: UserId): (r: Option<nat>)
    ensures r.Some? ==> r.value < |store| && OwnedBy(store[r.value], contactId, userId)
    ensures r.None? <==> forall i :: 0 <= i < |store| ==> !OwnedBy(store[i], contactId, userId)
  {
    FindFirst(store, c => OwnedBy(c, contactId, userId))
  }

  /** `getContactById(contactId, userId)`: the contact with this id, only when
      it is owned by this user. */
  function GetContactById(store: ContactStore, contactId: ContactId, userId: UserId): (r: Option<Contact>)
    ensures r.Some? ==> r.value in store && OwnedBy(r.value, contactId, userId)
    ensures r.None? <==> forall i :: 0 <= i < |store| ==> !OwnedBy(store[i], contactId, userId)
  {
    match OwnedIndex(store, contactId, userId)
    case None => None
    case Some(i) => Some(store[i])
  }

  /** With unique ids, the scoped lookup finds a contact exactly when it is
      in the store under that id and owner. */
  lemma GetContactByIdExact(store: ContactStore, isEmail: string -> bool, c: Contact)
    requires Invariant(store, isEmail)
    ensures GetContactById(store, c.id, c.createdBy) == Some(c) <==> c in store
  {
    if c in store {
      var k :| 0 <= k < |store| && store[k] == c;
      var r := GetContactById(store, c.id, c.createdBy);
      var i :| 0 <= i < |store| && store[i] == r.value;
      assert i == k;
    }
  }

  /** A created contact is found by its owner under its new id. */
  lemma CreateThenGet(store: ContactStore, body: NewContact, isEmail: string -> bool)
    requires Invariant(store, isEmail)
    ensures var r := CreateContact(store, body, isEmail);
            r.result.Ok? ==> GetContactById(r.state, r.result.value.id, r.result.value.createdBy) == Some(r.result.value)
  {
    var r := CreateContact(store, body, isEmail);
    if r.result.Ok? {
      CreatePreservesInvariant(store, body, isEmail);
      GetContactByIdExact(r.state, isEmail, r.result.value);
    }
  }

  /** Whether a contact belongs in `getAllContactsForUser`'s answer. */
  predicate Selected(c: Contact, userId: UserId, starredOnly: bool) {
    c.createdBy == userId && (starredOnly ==> c.starred)
  }

  /** Every starred contact comes before every unstarred one. */
  predicate StarredFirst(cs: seq<Contact>) {
    forall i, j :: 0 <= i < j < |cs| && !cs[i].starred ==> !cs[j].starred
  }

  /** The owner's contacts with the given `starred` flag. */
  function OwnedWithStar(userId: UserId, starred: bool): Contact -> bool {
    (c: Contact) => c.createdBy == userId && c.starred == starred
  }

  function SelectedBy(userId: UserId, starredOnly: bool): Contact -> bool {
    (c: Contact) => Selected(c, userId, starredOnly)
  }

  /** The starred part followed by the unstarred part holds exactly the
      selected contacts, counted with multiplicity. */
  lemma {:induction false} PartsArePermutation(store: ContactStore, userId: UserId, starredOnly: bool)
    ensures multiset(Filter(store, OwnedWithStar(userId, true)))
              + (if starredOnly then multiset{} else multiset(Filter(store, OwnedWithStar(userId, false))))
            == multiset(Filter(store, SelectedBy(userId, starredOnly)))
  {
    if |store| > 0 {
      PartsArePermutation(store[1..], userId, starredOnly);
    }
  }

  /** `getAllContactsForUser(userId, starredOnly = false)`: the user's
      contacts (only the starred ones when `starredOnly`), sorted with the
      starred ones first. Contacts with equal `starred` keep store order. */
  function GetAllContactsForUser(store: ContactStore, userId: UserId, starredOnly: bool): (r: seq<Contact>)
    ensures forall c :: c in r <==> c in store && Selected(c, userId, starredOnly)
    ensures multiset(r) == multiset(Filter(store, SelectedBy(userId, starredOnly)))
    ensures StarredFirst(r)
  {
    var front := Filter(store, OwnedWithStar(userId, true));
    var back := if starredOnly then [] else Filter(store, OwnedWithStar(userId, false));
    PartsArePermutation(store, userId, starredOnly);
    assert forall i :: 0 <= i < |front| ==> front[i] in front;
    assert forall i :: 0 <= i < |back| ==> back[i] in back;
    front + back
  }

  /** The document `Object.assign(contact, updateBody)` leaves: the present
      fields of the body, through the setters, over the stored ones. */
  function CastUpdate(c: Contact, body: ContactUpdate): Draft {
    Draft(if body.name.Some? then Trim(body.name.value) else c.name,
          if body.email.Some? then NormalizeEmail(body.email.value) else c.email,
          body.starred.GetOr(c.starred),
          Some(body.createdBy.GetOr(c.createdBy)))
  }

  /** `updateContactById(contactId, userId, updateBody)`: NOT_FOUND when the
      user owns no contact with this id; BAD_REQUEST when a present email is
      held by a different contact; otherwise exactly the fields present in
      the body are assigned (through the setters) and the contact is saved,
      unless validation fails. The store changes at that one position only. */
  function UpdateContactById(store: ContactStore, contactId: ContactId, userId: UserId, body: ContactUpdate,
                             isEmail: string -> bool): (r: Effect<Contact, ContactStore>)
    ensures OwnedIndex(store, contactId, userId).None? ==> r == Effect(Err(CONTACT_NOT_FOUND), store)
    ensures (&& OwnedIndex(store, contactId, userId).Some? && body.email.Some? && body.email.value != ""
             && IsEmailTaken(store, body.email.value, Some(contactId)))
            ==> r == Effect(Err(EMAIL_TAKEN), store)
    ensures (&& OwnedIndex(store, contactId, userId).Some?
             && !(body.email.Some? && body.email.value != "" && IsEmailTaken(store, body.email.value, Some(contactId))))
            ==> (r.result.Ok? <==>
                   ValidationFailures(CastUpdate(store[OwnedIndex(store, contactId, userId).value], body), isEmail) == map[])
    ensures r.result.Err? ==> r.state == store
    ensures r.result.Ok? ==>
              && OwnedIndex(store, contactId, userId).Some?
              && var i := OwnedIndex(store, contactId, userId).value;
                 var old_, new_ := store[i], r.result.value;
                 && r.state == store[i := new_]
                 && new_.id == old_.id
                 && new_.name == (if body.name.Some? then Trim(body.name.value) else old_.name)
                 && new_.email == (if body.email.Some? then NormalizeEmail(body.email.value) else old_.email)
                 && new_.starred == body.starred.GetOr(old_.starred)
                 && new_.createdBy == body.createdBy.GetOr(old_.createdBy)
  {
    match OwnedIndex(store, contactId, userId)
    case None => Effect(Err(CONTACT_NOT_FOUND), store)
    case Some(i) =>
      if body.email.Some? && body.email.value != "" && IsEmailTaken(store, body.email.value, Some(contactId)) then
        Effect(Err(EMAIL_TAKEN), store)
      else
        var c := store[i];
        match Save(CastUpdate(c, body), c.id, isEmail)
        case Err(e) => Effect(Err(e), store)
        case Ok(updated) => Effect(Ok(updated), store[i := updated])
  }

  /** `updateContactById` keeps the collection invariant. */
  lemma UpdatePreservesInvariant(store: ContactStore, contactId: ContactId, userId: UserId, body: ContactUpdate,
                                 isEmail: string -> bool)
    requires Invariant(store, isEmail)
    ensures Invariant(UpdateContactById(store, contactId, userId, body, isEmail).state, isEmail)
  {
    var r := UpdateContactById(store, contactId, userId, body, isEmail);
    if r.result.Ok? {
      var i := OwnedIndex(store, contactId, userId).value;
      var c := r.result.value;
      assert forall j :: 0 <= j < |store| && j != i ==> store[j].email != c.email by {
        forall j | 0 <= j < |store| && j != i ensures store[j].email != c.email {
          if body.email.Some? {
            assert !Collides(store[j], body.email.value, Some(contactId));
          }
        }
      }
      ReplaceKeepsInvariant(store, i, c, isEmail);
    }
  }

  /** `deleteContactById(contactId, userId)`: NOT_FOUND when the user owns no
      contact with this id; otherwise exactly that contact is removed and
      returned. */
  function DeleteContactById(store: ContactStore, contactId: ContactId, userId: UserId): (r: Effect<Contact, ContactStore>)
    ensures OwnedIndex(store, contactId, userId).None? <==> r == Effect(Err(USER_NOT_FOUND), store)
    ensures OwnedIndex(store, contactId, userId).Some? ==> r.result.Ok?
    ensures r.result.Ok? ==>
              && OwnedIndex(store, contactId, userId).Some?
              && var i := OwnedIndex(store, contactId, userId).value;
                 && r.result.value == store[i]
                 && r.state == store[..i] + store[i + 1..]
                 && multiset(r.state) + multiset{r.result.value} == multiset(store)
  {
    match OwnedIndex(store, contactId, userId)
    case None => Effect(Err(USER_NOT_FOUND), store)
    case Some(i) =>
      RemoveAt(store, i);
      Effect(Ok(store[i]), store[..i] + store[i + 1..])
  }

  /** After a delete, the contact is gone for its owner, and the invariant
      still holds. */
  lemma DeleteThenGone(store: ContactStore, contactId: ContactId, userId: UserId, isEmail: string -> bool)
    requires Invariant(store, isEmail)
    ensures var r := DeleteContactById(store, contactId, userId);
            && Invariant(r.state, isEmail)
            && GetContactById(r.state, contactId, userId).None?
  {
    var r := DeleteContactById(store, contactId, userId);
    if r.result.Ok? {
      var i := OwnedIndex(store, contactId, userId).value;
      RemoveKeepsInvariant(store, i, isEmail);
      var s := r.state;
      forall j | 0 <= j < |s|
        ensures !OwnedBy(s[j], contactId, userId)
      {
        var k := if j < i then j else j + 1;
        assert s[j] == store[k] && k != i;
      }
    }
  }

  /** `updateStarContactById(contactId, userId, starred = false)`: NOT_FOUND
      when the user owns no contact with this id; otherwise only its
      `starred` flag changes, to the given value or false. */
  function UpdateStarContactById(store: ContactStore, contactId: ContactId, userId: UserId,
                                 starred: Option<bool>): (r: Effect<Contact, ContactStore>)
    ensures OwnedIndex(store, contactId, userId).None? <==> r == Effect(Err(USER_NOT_FOUND), store)
    ensures OwnedIndex(store, contactId, userId).Some? ==> r.result.Ok?
    ensures r.result.Ok? ==>
              && OwnedIndex(store, contactId, userId).Some?
              && var i := OwnedIndex(store, contactId, userId).value;
                 && r.result.value == store[i].(starred := starred == Some(true))
                 && r.state == store[i := r.result.value]
  {
    match OwnedIndex(store, contactId, userId)
    case None => Effect(Err(USER_NOT_FOUND), store)
    case Some(i) =>
      var updated := store[i].(starred := starred.GetOr(false));
      Effect(Ok(updated), store[i := updated])
  }

  /** Starring keeps the invariant and moves the contact into (or out of)
      its owner's starred-only list. */
  lemma StarShowsInStarredList(store: ContactStore, contactId: ContactId, userId: UserId, starred: Option<bool>,
                               isEmail: string -> bool)
    requires Invariant(store, isEmail)
    requires OwnedIndex(store, contactId, userId).Some?
    ensures var r := UpdateStarContactById(store, contactId, userId, starred);
            && Invariant(r.state, isEmail)
            && (r.result.value in GetAllContactsForUser(r.state, userId, true) <==> starred == Some(true))
  {
    var r := UpdateStarContactById(store, contactId, userId, starred);
    var i := OwnedIndex(store, contactId, userId).value;
    ReplaceKeepsInvariant(store, i, r.result.value, isEmail);
    assert r.state[i] == r.result.value;
  }

  /** No operation by `userId` alters or removes a contact owned by someone
      else (the update body not carrying another owner). */
  lemma OtherOwnersUntouched(store: ContactStore, contactId: ContactId, userId: UserId, body: ContactUpdate,
                             starred: Option<bool>, isEmail: string -> bool, c: Contact)
    requires c in store && c.createdBy != userId
    requires body.createdBy.None? || body.createdBy == Some(userId)
    ensures c in UpdateContactById(store, contactId, userId, body, isEmail).state
    ensures c in DeleteContactById(store, contactId, userId).state
    ensures c in UpdateStarContactById(store, contactId, userId, starred).state
  {
    var k :| 0 <= k < |store| && store[k] == c;
    match OwnedIndex(store, contactId, userId)
    case None =>
    case Some(i) =>
      assert i != k;
      var d := DeleteContactById(store, contactId, userId).state;
      if k < i { assert d[k] == c; } else { assert d[k - 1] == c; }
      assert UpdateStarContactById(store, contactId, userId, starred).state[k] == c;
      var u := UpdateContactById(store, contactId, userId, body, isEmail);
      if u.result.Ok? { assert u.state[k] == c; }
  }
}

=== FILE: cors.dfy ===
/** The CORS middleware (src/middlewares/cors.js): the options computed for
    each request from its `Origin` header, and the `X-Skip-Cors` bypass.

    WHATWG URL parsing belongs to the runtime; it is the `hostname`
    parameter, which yields the host of a string that parses as a URL and
    None where `new URL` throws. The whitelist holds the one regular
    expression `/localhost/`, which is unanchored: its test is a substring
    search. */
module Cors {
  import opened Outcomes
  import opened Strings
  import opened Config

  const MAX_AGE := 86400
  const ALLOWED_HEADERS := ["content-type", "authorization"]
  const WHITELISTED := "localhost"
  const SKIP_HEADER_VALUE := "true"

  /** The options handed to the `cors` package. `credentials` is None when
      the key is not set at all. */
  datatype CorsOptions = CorsOptions(origin: bool, maxAge: nat, allowedHeaders: seq<string>, credentials: Option<bool>)

  /** What the middleware does with a request. */
  datatype CorsStep = Skip | Apply(options: CorsOptions)

  /** The hostname the origin reduces to: a missing or empty header, or an
      origin that fails to parse, gives the empty string (`new URL` rejects
      the empty string); a non-empty origin with no `http` anywhere in it is
      parsed with `http://` in front. */
  function OriginHost(origin: Option<string>, hostname: string -> Option<string>): (h: string)
    ensures origin.None? || origin == Some("") ==> h == ""
    ensures origin.Some? && origin.value != "" && !Contains(origin.value, "http")
            ==> h == hostname("http://" + origin.value).GetOr("")
    ensures origin.Some? && origin.value != "" && Contains(origin.value, "http")
            ==> h == hostname(origin.value).GetOr("")
  {
    match origin
    case None => ""
    case Some(o) =>
      if o == "" then ""
      else
        var url := if IndexOf(o, "http") == -1 then "http://" + o else o;
        hostname(url).GetOr("")
  }

  /** The whitelist test: the empty hostname passes, and so does any
      hostname in which the whitelisted pattern occurs. */
  function Whitelisted(h: string): (b: bool)
    ensures b <==> h == "" || exists k :: OccursAt(h, WHITELISTED, k)
  {
    h == "" || IndexOf(h, WHITELISTED) != -1
  }

  /** `corsAllowedDomain(req, callback)`. */
  function CorsAllowedDomain(origin: Option<string>, env: Env, hostname: string -> Option<string>): (o: CorsOptions)
    ensures o.maxAge == MAX_AGE && o.allowedHeaders == ALLOWED_HEADERS
    ensures o.credentials == Some(true) <==> env == Development
    ensures o.credentials.None? <==> env != Development
    ensures o.origin <==> Whitelisted(OriginHost(origin, hostname))
  {
    CorsOptions(
      Whitelisted(OriginHost(origin, hostname)),
      MAX_AGE,
      ALLOWED_HEADERS,
      if env == Development then Some(true) else None)
  }

  /** The exported middleware: a request whose `X-Skip-Cors` header is
      exactly `true` goes straight on; every other request gets the options
      above. */
  function CorsMiddleware(skipHeader: Option<string>, origin: Option<string>, env: Env,
                          hostname: string -> Option<string>): (s: CorsStep)
    ensures s == Skip <==> skipHeader == Some(SKIP_HEADER_VALUE)
    ensures s.Apply? ==> s.options == CorsAllowedDomain(origin, env, hostname)
    ensures s.Apply? ==> s.options.origin == Whitelisted(OriginHost(origin, hostname))
  {
    if skipHeader != Some(SKIP_HEADER_VALUE) then Apply(CorsAllowedDomain(origin, env, hostname)) else Skip
  }

  /** Requests without an `Origin` header or with an empty one, and requests
      whose origin does not
      parse, are allowed whatever the parser says about anything else. */
  lemma UnknownOriginAllowed(origin: Option<string>, env: Env, hostname: string -> Option<string>)
    requires || origin.None? || origin.value == ""
             || (!Contains(origin.value, "http") && hostname("http://" + origin.value).None?)
             || (Contains(origin.value, "http") && hostname(origin.value).None?)
    ensures CorsAllowedDomain(origin, env, hostname).origin
  {
  }

  /** The pattern is unanchored: a host that merely contains `localhost`,
      such as `localhost.evil.example`, is whitelisted, while one that does
      not contain it is refused. */
  lemma LookalikeHostAllowed(env: Env, hostname: string -> Option<string>)
    requires hostname("http://localhost.evil.example") == Some("localhost.evil.example")
    requires hostname("http://attacker.test") == Some("attacker.test")
    ensures CorsAllowedDomain(Some("http://localhost.evil.example"), env, hostname).origin
    ensures !CorsAllowedDomain(Some("http://attacker.test"), env, hostname).origin
  {
    assert OccursAt("http://localhost.evil.example", "http", 0);
    assert OccursAt("localhost.evil.example", WHITELISTED, 0);
    assert OccursAt("http://attacker.test", "http", 0);
    AbsentHeadNotContained("attacker.test", WHITELISTED);
  }

  /** The scheme is added only when `http` occurs nowhere in the origin: a
      bare address gets it, but a bare host that happens to contain `http` is
      parsed as it stands. */
  lemma SchemePrefixedOnlyWithoutHttp(hostname: string -> Option<string>)
    ensures OriginHost(Some("127.0.0.1:3000"), hostname) == hostname("http://127.0.0.1:3000").GetOr("")
    ensures OriginHost(Some("httpbin.example"), hostname) == hostname("httpbin.example").GetOr("")
  {
    AbsentHeadNotContained("127.0.0.1:3000", "http");
    assert "http://" + "127.0.0.1:3000" == "http://127.0.0.1:3000";
    assert OccursAt("httpbin.example", "http", 0);
  }
}

=== FILE: jwt.dfy ===
/** JSON Web Tokens as the core uses them. The payload carries the registered
    claims `sub`, `iat` and `exp` of sections 4.1.2, 4.1.6 and 4.1.4 of
    RFC 7519 plus the private claim `type`.

    Signing is abstract: a token on the wire is either the compact form of a
    payload signed with some key, or any other string. Verifying with a key
    succeeds exactly on tokens signed with that key whose `exp` is still in
    the future, which is the behaviour of the JWT library's `verify`. */
module Jwt {
  import opened Outcomes

  type UserId = nat
  type Secret = string

  datatype TokenType = Access | Refresh | ResetPassword | VerifyEmail

  datatype Payload = Payload(sub: UserId, iat: nat, exp: nat, tokenType: TokenType)

  datatype Token =
    | Signed(payload: Payload, key: Secret)
    | Opaque(text: string)

  /** JavaScript truthiness of a token string: only the empty string is falsy. */
  predicate Truthy(t: Token) {
    t != Opaque("")
  }

  const MALFORMED := Thrown("jwt malformed")
  const INVALID_SIGNATURE := Thrown("invalid signature")
  const EXPIRED := Thrown("jwt expired")

  function Sign(p: Payload, key: Secret): (t: Token)
    ensures Truthy(t)
  {
    Signed(p, key)
  }

  /** `jwt.verify(token, key)` at time `now` (seconds). */
  function Verify(t: Token, key: Secret, now: nat): (r: Result<Payload>)
    ensures r.Ok? <==> t.Signed? && t.key == key && now < t.payload.exp
    ensures r.Ok? ==> Sign(r.value, key) == t
    ensures r.Err? ==> r.error in {MALFORMED, INVALID_SIGNATURE, EXPIRED}
  {
    match t
    case Opaque(_) => Err(MALFORMED)
    case Signed(p, k) =>
      if k != key then Err(INVALID_SIGNATURE)
      else if now >= p.exp then Err(EXPIRED)
      else Ok(p)
  }

  /** Verification inverts signing while the token is unexpired, and reports
      expiry from `exp` on. */
  lemma VerifySign(p: Payload, key: Secret, now: nat)
    ensures now < p.exp ==> Verify(Sign(p, key), key, now) == Ok(p)
    ensures now >= p.exp ==> Verify(Sign(p, key), key, now) == Err(EXPIRED)
  {
  }

  /** A token signed with one key never verifies under another. */
  lemma VerifyOtherKey(p: Payload, key: Secret, other: Secret, now: nat)
    requires key != other
    ensures Verify(Sign(p, key), other, now) == Err(INVALID_SIGNATURE)
  {
  }
}

=== FILE: outcomes.dfy ===
/** Failure-compatible result types shared by every part of the model, and the
    HTTP status codes the controllers and services answer with.

    The original code reports failures by throwing: `ApiError(status, message)`
    for the errors meant for the client, plain `Error(message)` for token
    problems, Mongoose validation errors on save, and JavaScript runtime
    errors (a property read on `null`). Each of these is a constructor of
    `Error` here and travels in a `Result` instead of an exception. */
module Outcomes {

  const OK: nat := 200
  const CREATED: nat := 201
  const NO_CONTENT: nat := 204
  const FOUND: nat := 302
  const BAD_REQUEST: nat := 400
  const NOT_FOUND: nat := 404

  datatype Option<+T> = None | Some(value: T) {
    function GetOr(default: T): T {
      match this
      case Some(v) => v
      case None => default
    }
  }

  datatype Error =
    /** `new ApiError(httpStatus.X, message)` */
    | ApiError(status: nat, message: string)
    /** `new Error(message)`, including the errors of the JWT library */
    | Thrown(message: string)
    /** a Mongoose ValidationError: failing path -> validator message */
    | ValidationError(failures: map<string, string>)
    /** a JavaScript TypeError, e.g. a property read on `null` */
    | Crash(what: string)

  datatype Result<+T> = Ok(value: T) | Err(error: Error) {
    predicate IsFailure() {
      Err?
    }

    function PropagateFailure<U>(): Result<U>
      requires Err?
    {
      Err(error)
    }

    function Extract(): T
      requires Ok?
    {
      value
    }
  }

  /** Completion of an action that returns nothing. */
  datatype Outcome = Pass | Fail(error: Error)

  /** The result of a state-passing operation together with the state after it. */
  datatype Effect<+T, +S> = Effect(result: Result<T>, state: S)
}

=== FILE: passport.dfy ===
/** Request authentication (src/config/passport.js): where the JWT is taken
    from, and what the strategy's verify callback decides about its payload.

    A request is reduced to the bearer token the `Authorization` header
    yields (the header parsing belongs to the passport-jwt library) and the
    parsed cookie jar, which may be absent. */
module Passport {
  import opened Outcomes
  import opened Jwt
  import opened Config
  import opened Users

  datatype Request = Request(bearer: Option<Token>, cookies: Option<map<string, Token>>)

  /** `tokenExtractor(req, key = AUTH_COOKIE)`: a truthy bearer token wins;
      otherwise the cookie named `key` is read when there is a cookie jar;
      otherwise there is no token. */
  function TokenExtractor(req: Request, key: Option<string>, names: CookieNames): (r: Option<Token>)
    ensures req.bearer.Some? && Truthy(req.bearer.value) ==> r == req.bearer
    ensures !(req.bearer.Some? && Truthy(req.bearer.value)) ==>
              (req.cookies.None? ==> r.None?)
              && (req.cookies.Some? ==>
                    var name := key.GetOr(names.access);
                    && (r.Some? <==> name in req.cookies.value)
                    && (r.Some? ==> r.value == req.cookies.value[name]))
  {
    if req.bearer.Some? && Truthy(req.bearer.value) then req.bearer
    else if req.cookies.Some? then
      var name := key.GetOr(names.access);
      if name in req.cookies.value then Some(req.cookies.value[name]) else None
    else None
  }

  /** Which cookie is probed does not depend on any other cookie: two jars
      that agree on the probed name give the same token. */
  lemma OnlyOneCookieProbed(bearer: Option<Token>, jar1: map<string, Token>, jar2: map<string, Token>,
                            key: Option<string>, names: CookieNames)
    requires var name := key.GetOr(names.access);
             (name in jar1 <==> name in jar2) && (name in jar1 ==> jar1[name] == jar2[name])
    ensures TokenExtractor(Request(bearer, Some(jar1)), key, names)
         == TokenExtractor(Request(bearer, Some(jar2)), key, names)
  {
  }

  /** The outcome of authenticating a request: passport's `success`, `fail`
      (answered with 401) or `error`. */
  datatype Verdict = Authenticated(user: User) | Unauthenticated | Rejected(error: Error)

  const INVALID_TOKEN_TYPE := Thrown("Invalid token type")

  /** `jwtVerify(payload, done)`: anything but an ACCESS token is an error;
      an ACCESS token whose subject the directory does not know is a plain
      failure; otherwise the user is authenticated. `findById` is the
      directory lookup. */
  function JwtVerify(payload: Payload, findById: UserId -> Option<User>): (v: Verdict)
    ensures payload.tokenType != Access <==> v == Rejected(INVALID_TOKEN_TYPE)
    ensures payload.tokenType == Access ==>
              (findById(payload.sub).None? <==> v == Unauthenticated)
              && (findById(payload.sub).Some? ==> v == Authenticated(findById(payload.sub).value))
  {
    if payload.tokenType != Access then Rejected(INVALID_TOKEN_TYPE)
    else match findById(payload.sub)
      case None => Unauthenticated
      case Some(user) => Authenticated(user)
  }

  /** The JWT strategy as wired in this file: extract with the default cookie
      name, verify with the configured secret at time `now`, then run
      `jwtVerify`. A missing token or a failed verification is a plain
      failure. */
  function Authenticate(req: Request, cfg: Config, names: CookieNames, now: nat,
                        findById: UserId -> Option<User>): (v: Verdict)
    ensures var t := TokenExtractor(req, None, names);
            (forall u :: v == Authenticated(u) <==>
              && t.Some? && t.value.Signed? && t.value.key == cfg.jwt.secret && now < t.value.payload.exp
              && t.value.payload.tokenType == Access
              && findById(t.value.payload.sub) == Some(u))
    ensures v.Rejected? ==> v.error == INVALID_TOKEN_TYPE
    ensures var t := TokenExtractor(req, None, names);
            v.Rejected? <==> && t.Some? && t.value.Signed? && t.value.key == cfg.jwt.secret
                             && now < t.value.payload.exp && t.value.payload.tokenType != Access
  {
    match TokenExtractor(req, None, names)
    case None => Unauthenticated
    case Some(t) =>
      if !Truthy(t) then Unauthenticated
      else match Verify(t, cfg.jwt.secret, now)
        case Err(_) => Unauthenticated
        case Ok(payload) => JwtVerify(payload, findById)
  }
}

=== FILE: seqs.dfy ===
/** The two sequence queries the document store is reduced to: `findOne`
    (the first document in store order satisfying a filter) and `find`
    (all of them, in store order). */
module Seqs {
  import opened Outcomes

  /** Index of the first element satisfying `p`, or None when there is none. */
  function FindFirst<T>(s: seq<T>, p: T -> bool): (r: Option<nat>)
    ensures r.Some? ==> r.value < |s| && p(s[r.value])
    ensures r.Some? ==> forall j :: 0 <= j < r.value ==> !p(s[j])
    ensures r.None? <==> forall j :: 0 <= j < |s| ==> !p(s[j])
  {
    if |s| == 0 then None
    else if p(s[0]) then Some(0)
    else match FindFirst(s[1..], p)
      case None => None
      case Some(i) => Some(i + 1)
  }

  /** The elements satisfying `p`, in their original order. */
  function Filter<T(!new)>(s: seq<T>, p: T -> bool): (r: seq<T>)
    ensures |r| <= |s|
    ensures forall x :: x in r <==> x in s && p(x)
  {
    if |s| == 0 then []
    else if p(s[0]) then [s[0]] + Filter(s[1..], p)
    else Filter(s[1..], p)
  }

  /** Removing one element of a sequence: the multiset loses exactly that element. */
  lemma RemoveAt<T>(s: seq<T>, i: nat)
    requires i < |s|
    ensures multiset(s[..i] + s[i + 1..]) + multiset{s[i]} == multiset(s)
  {
    assert s == s[..i] + [s[i]] + s[i + 1..];
  }
}

=== FILE: strings.dfy ===
/** The string operations the original code relies on: JavaScript's
    `String.prototype.trim` (used by Mongoose's `trim` setter),
    `toLowerCase` (the `lowercase` setter), `indexOf` and the decimal
    rendering of a number inside a template literal. */
module Strings {

  /** The characters `trim` removes: the ECMAScript WhiteSpace and
      LineTerminator code points. */
  predicate IsWhitespace(c: char) {
    c in {' ', '\t', '\n', '\r', '\U{000B}', '\U{000C}', '\U{00A0}', '\U{1680}',
          '\U{2000}', '\U{2001}', '\U{2002}', '\U{2003}', '\U{2004}', '\U{2005}',
          '\U{2006}', '\U{2007}', '\U{2008}', '\U{2009}', '\U{200A}',
          '\U{2028}', '\U{2029}', '\U{202F}', '\U{205F}', '\U{3000}', '\U{FEFF}'}
  }

  /** `s` after dropping its leading whitespace. */
  function TrimStart(s: string): (r: string)
    ensures |r| <= |s| && r == s[|s| - |r|..]
    ensures forall i :: 0 <= i < |s| - |r| ==> IsWhitespace(s[i])
    ensures |r| > 0 ==> !IsWhitespace(r[0])
  {
    if |s| > 0 && IsWhitespace(s[0]) then TrimStart(s[1..]) else s
  }

  /** `s` after dropping its trailing whitespace. */
  function TrimEnd(s: string): (r: string)
    ensures |r| <= |s| && r == s[..|r|]
    ensures forall i :: |r| <= i < |s| ==> IsWhitespace(s[i])
    ensures |r| > 0 ==> !IsWhitespace(r[|r| - 1])
  {
    if |s| > 0 && IsWhitespace(s[|s| - 1]) then TrimEnd(s[..|s| - 1]) else s
  }

  /** No whitespace at either end. */
  predicate Trimmed(s: string) {
    |s| > 0 ==> !IsWhitespace(s[0]) && !IsWhitespace(s[|s| - 1])
  }

  /** JavaScript `s.trim()`. */
  function Trim(s: string): (r: string)
    ensures Trimmed(r)
    ensures |r| <= |s|
  {
    TrimEnd(TrimStart(s))
  }

  /** Where `trim` cuts: the trimmed string is `s[a..b]`, everything before
      `a` and from `b` on is whitespace. */
  lemma TrimBounds(s: string) returns (a: nat, b: nat)
    ensures a <= b <= |s| && Trim(s) == s[a..b]
    ensures forall i :: 0 <= i < a ==> IsWhitespace(s[i])
    ensures forall i :: b <= i < |s| ==> IsWhitespace(s[i])
  {
    var t := TrimStart(s);
    var r := TrimEnd(t);
    a := |s| - |t|;
    b := a + |r|;
    assert t == s[a..];
    assert r == t[..|r|];
    assert r == s[a..b];
    forall i | b <= i < |s|
      ensures IsWhitespace(s[i])
    {
      assert s[i] == t[i - a];
    }
  }

  /** `trim` removes whitespace at the two ends and nothing else: the result
      is the slice of `s` between a whitespace-only prefix and a
      whitespace-only suffix. */
  lemma TrimRemovesOuterWhitespace(s: string)
    ensures exists a, b :: && 0 <= a <= b <= |s| && Trim(s) == s[a..b]
                           && (forall i :: 0 <= i < a ==> IsWhitespace(s[i]))
                           && (forall i :: b <= i < |s| ==> IsWhitespace(s[i]))
  {
    var a, b := TrimBounds(s);
  }

  /** The slice between whitespace-only ends that has no whitespace at either
      end of its own is the trim: `trim` is determined by these two facts. */
  lemma TrimCharacterized(s: string, a: nat, b: nat)
    requires a <= b <= |s|
    requires forall i :: 0 <= i < a ==> IsWhitespace(s[i])
    requires forall i :: b <= i < |s| ==> IsWhitespace(s[i])
    requires Trimmed(s[a..b])
    ensures Trim(s) == s[a..b]
  {
    var a', b' := TrimBounds(s);
    var r := Trim(s);
    if a < b {
      assert !IsWhitespace(s[a]) by { assert s[a..b][0] == s[a]; }
      assert !IsWhitespace(s[b - 1]) by { assert s[a..b][b - a - 1] == s[b - 1]; }
      assert a' <= a && b <= b';
      assert !IsWhitespace(s[a']) by { assert r[0] == s[a']; }
      assert !IsWhitespace(s[b' - 1]) by { assert r[|r| - 1] == s[b' - 1]; }
      assert a == a' && b == b';
    } else {
      assert forall i :: 0 <= i < |s| ==> IsWhitespace(s[i]);
    }
  }

  /** A string with no whitespace at either end is left alone by `trim`. */
  lemma {:induction false} TrimStable(s: string)
    requires Trimmed(s)
    ensures Trim(s) == s
  {
    assert TrimStart(s) == s;
    assert TrimEnd(s) == s;
  }

  predicate IsUpper(c: char) {
    'A' <= c <= 'Z'
  }

  /** No ASCII upper-case letter. */
  predicate LowerCased(s: string) {
    forall i :: 0 <= i < |s| ==> !IsUpper(s[i])
  }

  function LowerChar(c: char): (d: char)
    ensures !IsUpper(d)
    ensures !IsUpper(c) ==> d == c
  {
    if IsUpper(c) then c - 'A' + 'a' else c
  }

  /** Lower-casing never turns a character into whitespace or whitespace
      into anything else. */
  lemma LowerCharWhitespace(c: char)
    ensures IsWhitespace(LowerChar(c)) <==> IsWhitespace(c)
    ensures IsWhitespace(c) ==> LowerChar(c) == c
  {
  }

  /** `s.toLowerCase()`, restricted to the ASCII letters. */
  function Lower(s: string): (r: string)
    ensures |r| == |s|
    ensures forall i :: 0 <= i < |s| ==> r[i] == LowerChar(s[i])
    ensures LowerCased(r)
    ensures Trimmed(s) ==> Trimmed(r)
  {
    if |s| > 0 then
      LowerCharWhitespace(s[0]);
      LowerCharWhitespace(s[|s| - 1]);
      seq(|s|, i requires 0 <= i < |s| => LowerChar(s[i]))
    else []
  }

  /** A string without upper-case letters is left alone by `toLowerCase`. */
  lemma LowerStable(s: string)
    requires LowerCased(s)
    ensures Lower(s) == s
  {
  }

  /** JavaScript `s.indexOf(pat, from)`: the first position at or after `from`
      where `pat` occurs, or -1. */
  function IndexOfFrom(s: string, pat: string, from: nat): (r: int)
    requires from <= |s|
    ensures r == -1 || (from <= r && OccursAt(s, pat, r))
    ensures r == -1 ==> forall k :: from <= k ==> !OccursAt(s, pat, k)
    ensures r != -1 ==> forall k :: from <= k < r ==> !OccursAt(s, pat, k)
    decreases |s| - from
  {
    if |s| - from < |pat| then -1
    else if s[from..from + |pat|] == pat then from
    else if from == |s| then -1
    else IndexOfFrom(s, pat, from + 1)
  }

  function IndexOf(s: string, pat: string): (r: int)
    ensures r == -1 <==> !Contains(s, pat)
    ensures r != -1 ==> OccursAt(s, pat, r) && forall k :: 0 <= k < r ==> !OccursAt(s, pat, k)
  {
    IndexOfFrom(s, pat, 0)
  }

  /** `pat` occurs somewhere in `s` (the test a regular expression without
      anchors such as `/localhost/` performs). */
  ghost predicate Contains(s: string, pat: string) {
    exists k :: OccursAt(s, pat, k)
  }

  /** A pattern whose first character appears nowhere in `s` does not occur
      in `s`. */
  lemma AbsentHeadNotContained(s: string, pat: string)
    requires |pat| > 0 && forall i :: 0 <= i < |s| ==> s[i] != pat[0]
    ensures !Contains(s, pat)
  {
    forall k | 0 <= k <= |s| - |pat|
      ensures !OccursAt(s, pat, k)
    {
      assert s[k..k + |pat|][0] == s[k];
    }
  }

  /** `pat` occurs in `s` starting at position `k`. */
  predicate OccursAt(s: string, pat: string, k: int) {
    0 <= k <= |s| - |pat| && s[k..k + |pat|] == pat
  }

  function DigitChar(d: nat): (c: char)
    requires d < 10
    ensures '0' <= c <= '9'
  {
    '0' + d as char
  }

  /** The decimal rendering of `n`, as a template literal produces it. */
  function Decimal(n: nat): (r: string)
    ensures |r| > 0
    ensures forall i :: 0 <= i < |r| ==> '0' <= r[i] <= '9'
    ensures |r| > 1 ==> r[0] != '0'
  {
    if n < 10 then [DigitChar(n)] else Decimal(n / 10) + [DigitChar(n % 10)]
  }
}

=== FILE: token_service.dfy ===
/** Token issuance and store-backed verification (src/services/token.service.js).

    The token store is a sequence of records in insertion order; `findOne`
    returns the first matching record. "Now" is a parameter in seconds, and
    `nowMillis` stands for `Date.now()` where the source reads it. */
module TokenService {
  import opened Outcomes
  import opened Seqs
  import opened Jwt
  import opened Config
  import opened Users
  import Strings

  datatype TokenRecord = TokenRecord(token: Token, user: UserId, expires: nat, tokenType: TokenType, blacklisted: bool)

  type TokenStore = seq<TokenRecord>

  /** A token with its expiry, as returned to the client. */
  datatype Expiring = Expiring(token: Token, expires: nat)

  datatype AuthTokens = AuthTokens(access: Expiring, refresh: Expiring)

  /** A value produced together with the token store after saving. */
  datatype Issued<+T> = Issued(value: T, store: TokenStore)

  const TOKEN_NOT_FOUND := Thrown("Token not found")
  const NO_USER_WITH_EMAIL := ApiError(NOT_FOUND, "No users found with this email")
  const GOOGLE_TOKENS_MISSING := ApiError(BAD_REQUEST, "Googele Id token or access token not found")

  /** `generateToken(userId, expires, type, secret = config.jwt.secret)`:
      signs `{sub, iat, exp, type}` with the given secret, or with the
      configured one when none is given. */
  function GenerateToken(userId: UserId, expires: nat, tokenType: TokenType, secret: Option<Secret>,
                         cfg: Config, now: nat): (t: Token)
    ensures t.Signed? && t.key == secret.GetOr(cfg.jwt.secret)
    ensures t.payload == Payload(userId, now, expires, tokenType)
  {
    Sign(Payload(userId, now, expires, tokenType), secret.GetOr(cfg.jwt.secret))
  }

  /** A token generated with the default secret verifies under the configured
      secret, yielding its subject, type and expiry, exactly until it expires. */
  lemma GeneratedTokenVerifies(userId: UserId, expires: nat, tokenType: TokenType, cfg: Config, issuedAt: nat, now: nat)
    ensures var r := Verify(GenerateToken(userId, expires, tokenType, None, cfg, issuedAt), cfg.jwt.secret, now);
            && (r.Ok? <==> now < expires)
            && (r.Ok? ==> r.value.sub == userId && r.value.tokenType == tokenType && r.value.exp == expires)
  {
  }

  /** `saveToken(token, userId, expires, type, blacklisted = false)`:
      appends one record; `blacklisted` defaults to false. */
  function SaveToken(store: TokenStore, token: Token, userId: UserId, expires: nat, tokenType: TokenType,
                     blacklisted: Option<bool>): (r: Issued<TokenRecord>)
    ensures r.store == store + [r.value]
    ensures r.value.token == token && r.value.user == userId
    ensures r.value.expires == expires && r.value.tokenType == tokenType
    ensures r.value.blacklisted == (blacklisted == Some(true))
  {
    var rec := TokenRecord(token, userId, expires, tokenType, blacklisted.GetOr(false));
    Issued(rec, store + [rec])
  }

  /** The filter of `verifyToken`'s `findOne`. */
  predicate Matches(rec: TokenRecord, token: Token, tokenType: TokenType, user: UserId) {
    rec.token == token && rec.tokenType == tokenType && rec.user == user && !rec.blacklisted
  }

  /** `verifyToken(token, type)`: the signature and expiry are checked with
      the configured secret, then the first record matching the token, the
      requested type, the payload's subject and `blacklisted == false` is
      returned. The payload's own `type` claim is not consulted. */
  function VerifyToken(store: TokenStore, token: Token, tokenType: TokenType, cfg: Config, now: nat): (r: Result<TokenRecord>)
    ensures var v := Verify(token, cfg.jwt.secret, now);
            && (v.Err? ==> r == Err(v.error))
            && (v.Ok? ==> (r.Ok? <==> exists i :: 0 <= i < |store| && Matches(store[i], token, tokenType, v.value.sub)))
            && (v.Ok? && r.Err? ==> r.error == TOKEN_NOT_FOUND)
    ensures r.Ok? ==> r.value in store && Matches(r.value, token, tokenType, token.payload.sub)
  {
    var payload :- Verify(token, cfg.jwt.secret, now);
    match FindFirst(store, rec => Matches(rec, token, tokenType, payload.sub))
    case None => Err(TOKEN_NOT_FOUND)
    case Some(i) => Ok(store[i])
  }

  /** A saved, freshly generated token verifies for its own type exactly until
      its expiry. */
  lemma SavedTokenVerifies(store: TokenStore, userId: UserId, expires: nat, tokenType: TokenType,
                           cfg: Config, issuedAt: nat, now: nat)
    ensures var t := GenerateToken(userId, expires, tokenType, None, cfg, issuedAt);
            var saved := SaveToken(store, t, userId, expires, tokenType, None);
            VerifyToken(saved.store, t, tokenType, cfg, now).Ok? <==> now < expires
  {
    var t := GenerateToken(userId, expires, tokenType, None, cfg, issuedAt);
    var saved := SaveToken(store, t, userId, expires, tokenType, None);
    assert saved.store[|store|] == saved.value;
  }

  /** A blacklisted record, or one stored under another type, never changes
      the outcome of `verifyToken`. */
  lemma {:induction false} IrrelevantRecordIgnored(store: TokenStore, rec: TokenRecord, token: Token,
                                                   tokenType: TokenType, cfg: Config, now: nat)
    requires rec.blacklisted || rec.tokenType != tokenType
    ensures VerifyToken(store + [rec], token, tokenType, cfg, now) == VerifyToken(store, token, tokenType, cfg, now)
  {
    var v := Verify(token, cfg.jwt.secret, now);
    if v.Ok? {
      var p := (r: TokenRecord) => Matches(r, token, tokenType, v.value.sub);
      var s' := store + [rec];
      assert !p(rec);
      var a := FindFirst(s', p);
      var b := FindFirst(store, p);
      assert forall j :: 0 <= j < |store| ==> s'[j] == store[j];
      if b.Some? {
        assert a.Some? && a.value == b.value;
      } else {
        assert a.None?;
      }
    }
  }

  /** `generateAuthTokens(user)`: an ACCESS token living
      `accessExpirationMinutes` and a REFRESH token living
      `refreshExpirationDays`; only the REFRESH token is saved. */
  function GenerateAuthTokens(user: User, store: TokenStore, cfg: Config, now: nat): (r: Issued<AuthTokens>)
    ensures r.value.access.expires == now + cfg.jwt.accessExpirationMinutes * SECONDS_PER_MINUTE
    ensures r.value.refresh.expires == now + cfg.jwt.refreshExpirationDays * SECONDS_PER_DAY
    ensures r.value.access.token == GenerateToken(user.id, r.value.access.expires, Access, None, cfg, now)
    ensures r.value.refresh.token == GenerateToken(user.id, r.value.refresh.expires, Refresh, None, cfg, now)
    ensures r.store == store + [TokenRecord(r.value.refresh.token, user.id, r.value.refresh.expires, Refresh, false)]
  {
    var accessExpires := now + cfg.jwt.accessExpirationMinutes * SECONDS_PER_MINUTE;
    var accessToken := GenerateToken(user.id, accessExpires, Access, None, cfg, now);
    var refreshExpires := now + cfg.jwt.refreshExpirationDays * SECONDS_PER_DAY;
    var refreshToken := GenerateToken(user.id, refreshExpires, Refresh, None, cfg, now);
    var saved := SaveToken(store, refreshToken, user.id, refreshExpires, Refresh, None);
    Issued(AuthTokens(Expiring(accessToken, accessExpires), Expiring(refreshToken, refreshExpires)), saved.store)
  }

  /** The issued REFRESH token verifies against the new store as a REFRESH
      token exactly until its expiry. */
  lemma AuthRefreshVerifies(user: User, store: TokenStore, cfg: Config, issuedAt: nat, now: nat)
    ensures var issued := GenerateAuthTokens(user, store, cfg, issuedAt);
            var verified := VerifyToken(issued.store, issued.value.refresh.token, Refresh, cfg, now);
            verified.Ok? <==> now < issued.value.refresh.expires
  {
    var issued := GenerateAuthTokens(user, store, cfg, issuedAt);
    SavedTokenVerifies(store, user.id, issued.value.refresh.expires, Refresh, cfg, issuedAt, now);
  }

  /** The ACCESS token is never stored: unless the old store already held it,
      `verifyToken` rejects it for every type. */
  lemma AccessTokenNotStored(user: User, store: TokenStore, cfg: Config, issuedAt: nat, now: nat, tokenType: TokenType)
    requires forall i :: 0 <= i < |store| ==> store[i].token != Sign(Payload(user.id, issuedAt,
               issuedAt + cfg.jwt.accessExpirationMinutes * SECONDS_PER_MINUTE, Access), cfg.jwt.secret)
    ensures var issued := GenerateAuthTokens(user, store, cfg, issuedAt);
            VerifyToken(issued.store, issued.value.access.token, tokenType, cfg, now).Err?
  {
    var issued := GenerateAuthTokens(user, store, cfg, issuedAt);
    var s := issued.store;
    assert s[|store|].token.payload.tokenType == Refresh;
    assert forall i :: 0 <= i < |s| ==> s[i].token != issued.value.access.token by {
      forall i | 0 <= i < |s| ensures s[i].token != issued.value.access.token {
        if i < |store| { assert s[i] == store[i]; }
      }
    }
  }

  /** Generates a token of one of the single-purpose types and saves it. */
  function IssueStored(userId: UserId, lifetimeMinutes: nat, tokenType: TokenType, store: TokenStore,
                       cfg: Config, now: nat): (r: Issued<Token>)
    ensures var expires := now + lifetimeMinutes * SECONDS_PER_MINUTE;
            && r.value == GenerateToken(userId, expires, tokenType, None, cfg, now)
            && r.store == store + [TokenRecord(r.value, userId, expires, tokenType, false)]
  {
    var expires := now + lifetimeMinutes * SECONDS_PER_MINUTE;
    var token := GenerateToken(userId, expires, tokenType, None, cfg, now);
    Issued(token, SaveToken(store, token, userId, expires, tokenType, None).store)
  }

  /** `generateResetPasswordToken(email)`: NOT_FOUND with the store untouched
      when the directory has no user with this email; otherwise a saved
      RESET_PASSWORD token for that user. */
  function GenerateResetPasswordToken(email: string, getUserByEmail: string -> Option<User>, store: TokenStore,
                                      cfg: Config, now: nat): (r: Effect<Token, TokenStore>)
    ensures getUserByEmail(email).None? <==> r == Effect(Err(NO_USER_WITH_EMAIL), store)
    ensures getUserByEmail(email).Some? ==> r.result.Ok?
    ensures r.result.Ok? ==>
              var u := getUserByEmail(email).value;
              var expires := now + cfg.jwt.resetPasswordExpirationMinutes * SECONDS_PER_MINUTE;
              && r.result.value == GenerateToken(u.id, expires, ResetPassword, None, cfg, now)
              && r.state == store + [TokenRecord(r.result.value, u.id, expires, ResetPassword, false)]
  {
    match getUserByEmail(email)
    case None => Effect(Err(NO_USER_WITH_EMAIL), store)
    case Some(user) =>
      var issued := IssueStored(user.id, cfg.jwt.resetPasswordExpirationMinutes, ResetPassword, store, cfg, now);
      Effect(Ok(issued.value), issued.store)
  }

  /** `generateVerifyEmailToken(user)`: a saved VERIFY_EMAIL token for the user. */
  function GenerateVerifyEmailToken(user: User, store: TokenStore, cfg: Config, now: nat): (r: Issued<Token>)
    ensures var expires := now + cfg.jwt.verifyEmailExpirationMinutes * SECONDS_PER_MINUTE;
            && r.value == GenerateToken(user.id, expires, VerifyEmail, None, cfg, now)
            && r.store == store + [TokenRecord(r.value, user.id, expires, VerifyEmail, false)]
  {
    IssueStored(user.id, cfg.jwt.verifyEmailExpirationMinutes, VerifyEmail, store, cfg, now)
  }

  /** A reset-password token, once issued, verifies as RESET_PASSWORD (and not
      as VERIFY_EMAIL) until it expires. */
  lemma ResetTokenVerifies(email: string, getUserByEmail: string -> Option<User>, store: TokenStore,
                           cfg: Config, issuedAt: nat, now: nat)
    requires getUserByEmail(email).Some?
    requires forall i :: 0 <= i < |store| ==>
               store[i].token != GenerateToken(getUserByEmail(email).value.id,
                                               issuedAt + cfg.jwt.resetPasswordExpirationMinutes * SECONDS_PER_MINUTE,
                                               ResetPassword, None, cfg, issuedAt)
    ensures var r := GenerateResetPasswordToken(email, getUserByEmail, store, cfg, issuedAt);
            var expires := issuedAt + cfg.jwt.resetPasswordExpirationMinutes * SECONDS_PER_MINUTE;
            && r.result.Ok?
            && (VerifyToken(r.state, r.result.value, ResetPassword, cfg, now).Ok? <==> now < expires)
            && VerifyToken(r.state, r.result.value, VerifyEmail, cfg, now).Err?
  {
    var u := getUserByEmail(email).value;
    var expires := issuedAt + cfg.jwt.resetPasswordExpirationMinutes * SECONDS_PER_MINUTE;
    SavedTokenVerifies(store, u.id, expires, ResetPassword, cfg, issuedAt, now);
    var r := GenerateResetPasswordToken(email, getUserByEmail, store, cfg, issuedAt);
    assert r.state[|store|].tokenType == ResetPassword;
  }

  /** A verify-email token, once issued, verifies as VERIFY_EMAIL (and not as
      RESET_PASSWORD) until it expires. */
  lemma VerifyEmailTokenVerifies(user: User, store: TokenStore, cfg: Config, issuedAt: nat, now: nat)
    requires forall i :: 0 <= i < |store| ==>
               store[i].token != GenerateToken(user.id,
                                               issuedAt + cfg.jwt.verifyEmailExpirationMinutes * SECONDS_PER_MINUTE,
                                               VerifyEmail, None, cfg, issuedAt)
    ensures var r := GenerateVerifyEmailToken(user, store, cfg, issuedAt);
            var expires := issuedAt + cfg.jwt.verifyEmailExpirationMinutes * SECONDS_PER_MINUTE;
            && (VerifyToken(r.store, r.value, VerifyEmail, cfg, now).Ok? <==> now < expires)
            && VerifyToken(r.store, r.value, ResetPassword, cfg, now).Err?
  {
    var expires := issuedAt + cfg.jwt.verifyEmailExpirationMinutes * SECONDS_PER_MINUTE;
    SavedTokenVerifies(store, user.id, expires, VerifyEmail, cfg, issuedAt, now);
    var r := GenerateVerifyEmailToken(user, store, cfg, issuedAt);
    assert r.store[|store|].tokenType == VerifyEmail;
  }

  /** The claims read from Google's id_token. */
  datatype GoogleClaims = GoogleClaims(name: string, email: string, emailVerified: bool)

  /** A present token parameter: neither undefined nor the empty string. */
  predicate Present(s: Option<string>) {
    s.Some? && s.value != ""
  }

  /** The user synthesised from Google's claims: role `user`, the claim's
      verification flag, and a placeholder password made of the email
      followed by the current time in milliseconds. */
  function GoogleUserDraft(claims: GoogleClaims, nowMillis: nat): (d: UserDraft)
    ensures d.role == "user"
    ensures d.isEmailVerified == claims.emailVerified
    ensures d.name == claims.name && d.email == claims.email
    ensures |d.password| > |claims.email| && d.password[..|claims.email|] == claims.email
  {
    UserDraft(claims.name, claims.email, claims.emailVerified, claims.email + Strings.Decimal(nowMillis), "user")
  }

  /** `generateGoogleUserToken(id_token, access_token)`: BAD_REQUEST before
      anything else when either token is missing; otherwise the decoded claims
      become a user draft, the directory finds-and-updates the user by email,
      and an auth token pair is issued for the user it returns. `decode` is
      `jwt.decode` (None for a string that is not a JWT) and `findAndUpdate`
      is the directory call (None when it yields no user). */
  function GenerateGoogleUserToken(idToken: Option<string>, accessToken: Option<string>,
                                   decode: string -> Option<GoogleClaims>,
                                   findAndUpdate: UserDraft -> Option<User>,
                                   store: TokenStore, cfg: Config, now: nat, nowMillis: nat): (r: Effect<AuthTokens, TokenStore>)
    ensures !Present(idToken) || !Present(accessToken) ==> r == Effect(Err(GOOGLE_TOKENS_MISSING), store)
    ensures r.result.Err? ==> r.state == store
    ensures r.result.Ok? <==>
              && Present(idToken) && Present(accessToken)
              && decode(idToken.value).Some?
              && findAndUpdate(GoogleUserDraft(decode(idToken.value).value, nowMillis)).Some?
    ensures r.result.Ok? ==>
              && Present(idToken) && Present(accessToken)
              && decode(idToken.value).Some?
              && var draft := GoogleUserDraft(decode(idToken.value).value, nowMillis);
                 && findAndUpdate(draft).Some?
                 && var issued := GenerateAuthTokens(findAndUpdate(draft).value, store, cfg, now);
                    r == Effect(Ok(issued.value), issued.store)
  {
    if !Present(idToken) || !Present(accessToken) then Effect(Err(GOOGLE_TOKENS_MISSING), store)
    else match decode(idToken.value)
      case None => Effect(Err(Crash("Cannot read properties of null (reading 'name')")), store)
      case Some(claims) =>
        match findAndUpdate(GoogleUserDraft(claims, nowMillis))
        case None => Effect(Err(Crash("Cannot read properties of null (reading 'id')")), store)
        case Some(user) =>
          var issued := GenerateAuthTokens(user, store, cfg, now);
          Effect(Ok(issued.value), issued.store)
  }

  /** After a successful Google sign-in, the REFRESH token handed out
      verifies against the new store as a REFRESH token exactly until its
      expiry. */
  lemma GoogleRefreshVerifies(idToken: Option<string>, accessToken: Option<string>,
                              decode: string -> Option<GoogleClaims>, findAndUpdate: UserDraft -> Option<User>,
                              store: TokenStore, cfg: Config, issuedAt: nat, nowMillis: nat, now: nat)
    requires Present(idToken) && Present(accessToken) && decode(idToken.value).Some?
    requires findAndUpdate(GoogleUserDraft(decode(idToken.value).value, nowMillis)).Some?
    ensures var r := GenerateGoogleUserToken(idToken, accessToken, decode, findAndUpdate, store, cfg, issuedAt, nowMillis);
            && r.result.Ok?
            && (VerifyToken(r.state, r.result.value.refresh.token, Refresh, cfg, now).Ok? <==> now < r.result.value.refresh.expires)
  {
    var user := findAndUpdate(GoogleUserDraft(decode(idToken.value).value, nowMillis)).value;
    AuthRefreshVerifies(user, store, cfg, issuedAt, now);
  }
}

=== FILE: users.dfy ===
/** The user entity the token and auth code refers to. The user directory
    itself (creation, lookup, password handling) is outside this model; the
    operations that consult it take its lookups as function parameters. */
module Users {
  import Jwt

  datatype User = User(id: Jwt.UserId, name: string, email: string, role: string, isEmailVerified: bool)

  /** The attributes handed to the directory to create or update a user. */
  datatype UserDraft = UserDraft(name: string, email: string, isEmailVerified: bool, password: string, role: string)
}
